=== FILE: README.md ===
# twich — a Dafny model of its core

`twich` is a small Python client library for Twitch. This project models
its deterministic core in Dafny and proves properties of that model. The
core has five parts:

- **Callback receiver** (`AuthApp`). The local OAuth callback handler reads
  the URL fragment a browser relays, for example
  `#access_token=...&scope=...`. It writes the token into its owner and
  marks the transaction completed.
- **User access token** (`UserToken`). This part covers:
  - the authorization URL and redirect URI builders and the scope joining;
  - the three-way `is_valid` decision: no token, known expiry, or a call to
    the validation endpoint;
  - the renew-on-read behaviour of `__str__` and `request_new`.
- **PubSub client** (`PubSub`). The WebSocket client is a state machine
  over `is_connected` and `auto_reconnect`. Events produce an output trace
  of envelopes sent, messages forwarded to the user hook, `connect` calls,
  socket closes and hook calls.
- **IRC client** (`Irc`). This part covers:
  - command framing and the console echo that hides `PASS` commands;
  - the `connect` handshake;
  - the `feed` loop over received chunks, which answers each `PING` with a
    `PONG` before yielding it.
- **REST helper** (`Request`). This part covers the HTTP method whitelist,
  the rule that a `status` key in a response means an error, and
  `unpack_json`. That function recursively decodes JSON objects that
  Twitch sends inside string values.

Supporting modules:

- `Wrappers`: `Option` and `Result`.
- `Text`: Python's `str.split` with a non-empty separator, `join`,
  prefix and suffix tests, and decimal rendering.
- `Json`: a decoded JSON value. Objects are ordered field lists, because
  Python dictionaries keep insertion order.
- `Errors`: the exceptions the core raises, as one datatype.

The outside world is passed in as parameters:

- the clock is a `real` (`now`, `later`);
- the HTTP call is an oracle `fetch` from token to response body, where
  `None` means the HTTP library raised;
- `json.loads` is an abstract partial function `parse`;
- the browser round trip is the list of fragment bodies POSTed to the
  receiver;
- the IRC message parser is an abstract function from a raw line to its
  command;
- the bytes read from the IRC socket are a list of chunks.

`unpack_json` recurses into values decoded from strings. The model proves
that this recursion ends under one sufficient assumption, the predicate
`Json.Shrinking`: `parse` never produces a value larger than its input
text, which holds of real JSON. Every member that decodes takes it as a
precondition.

The state machines return their new state together with the actions taken,
in order:

- `PubSub.Step` for the PubSub client;
- `AuthApp.Reply` and `UserToken.Outcome` for the token;
- a sequence of `Irc.Action` for IRC.

A `RECONNECT` envelope leaves `auto_reconnect` cleared, because
`disconnect` clears it before `connect` runs. Further
`RECONNECT`s still reconnect, but a plain close no longer does.

## Model

| member | source | states |
|---|---|---|
| Request.NewRequest | twich/request.py:12-19 | a method is accepted iff it is `GET`, `POST` or `DELETE`; the accepted method's name is the one given; anything else is a `ValueError` |
| Request.MethodNameAccepted | twich/request.py:12-19 | each of the three methods dispatches back to itself |
| Request.UnpackValue | twich/request.py:62-75 | a string that does not decode is kept; a string that decodes to a non-object is replaced by that value and not decoded again; a decoded object or an original object becomes the object of its fields unpacked in turn (`Request.UnpackFields`), keeping its keys; every other value, lists included, is kept unchanged |
| Request.UnpackFields | twich/request.py:59-77 | the result has exactly the input's keys, in order, and each value is the input's value unpacked on its own |
| Request.Response | twich/request.py:43-62 | wrapping succeeds exactly for a dictionary, whose fields are unpacked; anything else raises `AttributeError` from `.items()` |
| Request.UnpackFixedIffSettled | twich/request.py:62-75 | unpacking leaves a value unchanged iff no string reachable through objects decodes |
| Request.FieldsFixedIffSettled | twich/request.py:59-77 | the same, for a whole object |
| Request.Send | twich/request.py:27-40 | succeeds iff the body decodes to an object without `status`, and then returns it unpacked; a `status` key together with `message` is a request error carrying both values; a missing `message` is a `KeyError`; an undecodable body, a non-object body and a failed HTTP call are distinct errors |
| AuthApp.Start | twich/auth/authapp.py:14-20 | a new receiver is not completed and holds its owner's token |
| AuthApp.Fragment | twich/auth/authapp.py:84 | exactly the first character is dropped; an empty body stays empty |
| AuthApp.ParseFragment | twich/auth/authapp.py:84-99 | the parameters of a body are those of its `&`-separated segments after the first character is dropped; `AuthApp.FragmentParamsClean` and `AuthApp.ParamsLastWins` state what they hold |
| AuthApp.FragmentParamsClean | twich/auth/authapp.py:89-99 | no received key or value contains `&` or `=` |
| AuthApp.Params | twich/auth/authapp.py:89-99 | each well-formed segment in turn stores its value under its key, so a later segment overwrites an earlier one; `AuthApp.ParamsLastWins` characterises the result |
| AuthApp.ParamOf | twich/auth/authapp.py:91-99 | a segment is a parameter iff it holds exactly one `=`; then it is `key=value` and neither side contains `=` |
| AuthApp.ParamsLastWins | twich/auth/authapp.py:89-99 | a key is in the dictionary iff some well-formed segment defines it, and its value is that of the last such segment |
| AuthApp.Receive | twich/auth/authapp.py:76-116 | without `access_token` a `KeyError` is raised and the state is unchanged; with it the owner's token becomes its value and the transaction is completed; the reply is `TRANSACTION COMPLETED` iff a shutdown hook exists, otherwise the not-Werkzeug error |
| AuthApp.StateIndependentOfShutdown | twich/auth/authapp.py:105-113 | the state after a POST is the same whether or not the shutdown hook exists |
| AuthApp.FirstCharacterIgnored | twich/auth/authapp.py:84 | the parameters do not depend on the first character of the body |
| AuthApp.ReceiveExtractsToken | twich/auth/authapp.py:89-108 | a body of `&`-joined segments containing `access_token=T`, not redefined later, hands `T` to the owner and completes the transaction, even when `T` is empty and other segments are malformed |
| AuthApp.TokenSegment | twich/auth/authapp.py:93-94 | `access_token=T` parses as the parameter `access_token` with value `T` |
| AuthApp.ReceiveMissingToken | twich/auth/authapp.py:101-102 | a body with no well-formed `access_token` segment raises `KeyError` and leaves token and completion flag unchanged |
| UserToken.ScopeValue | twich/auth/user_token.py:27-28 | a string scope passes through; a list scope is its items joined with `%20` |
| UserToken.ScopeRoundTrip | twich/auth/user_token.py:27-28 | a non-empty list of scope names without `%` splits back on `%20` into exactly that list |
| UserToken.TrimSlash | twich/auth/user_token.py:114-115 | exactly one trailing `/` is removed when present; otherwise the path is unchanged |
| UserToken.RedirectUri | twich/auth/user_token.py:110-117 | the URI is `http://localhost:` followed by the decimal port and the path with at most one trailing `/` removed |
| UserToken.Query | twich/auth/user_token.py:31-36 | the query has exactly `client_id`, `redirect_uri`, `response_type=token` and `scope`, in that order |
| UserToken.Render | twich/auth/user_token.py:104 | each query pair renders as `key=value`, in order |
| UserToken.AuthorizationUrl | twich/auth/user_token.py:100-107 | the URL starts with the authorize endpoint followed by `?` |
| UserToken.AuthorizationUrlRoundTrip | twich/auth/user_token.py:100-107 | the query part splits on `&` into one segment per pair, in insertion order, and each segment parses back to its pair when no key or value contains `&` or `=` |
| UserToken.New | twich/auth/user_token.py:17-36 | a new token has the given token, no expiry and no identity, and a query with the four keys in order |
| UserToken.ExpiryAfter | twich/auth/user_token.py:64 | a number is added to the clock; the addition succeeds exactly for numbers and booleans; anything else is a `TypeError` |
| UserToken.IsValid | twich/auth/user_token.py:49-73 | no token or an empty token is invalid; a known expiry is compared with the clock; otherwise the validation endpoint decides; the token and configuration never change; only a successful validation changes the cached expiry |
| UserToken.Validate | twich/auth/user_token.py:58-73 | a request error means invalid with nothing cached; any other failure propagates; a missing `expires_in` is a `KeyError`; a numeric `expires_in` caches `now + expires_in` and means valid; a valid result caches the response's `login` and `user_id`, null when absent |
| UserToken.IsValidWithoutRequest | twich/auth/user_token.py:52-56 | with no token or a known expiry, the result does not depend on the validation endpoint |
| UserToken.ValidWithinWindow | twich/auth/user_token.py:55-64 | after a successful validation, the token stays valid at any later time before the cached expiry, without another request |
| UserToken.AwaitCallback | twich/auth/user_token.py:81-92 | the wait completes iff some POST carries `access_token`, and then the token is the one from the first such POST; otherwise nothing changes |
| UserToken.RequestNew | twich/auth/user_token.py:75-97 | it waits iff no POST completes the transaction; otherwise the token is replaced by the received one and re-validated at the later time: a valid result returns the token, an invalid one raises `InvalidTokenException`, and a failing check propagates its error; a cached expiry survives renewal |
| UserToken.Read | twich/auth/user_token.py:41-47 | a valid token is returned without renewal; a failing validity check propagates; an invalid token is renewed by `request_new`, starting from the state the check left; a returned token has a cached expiry; the configuration never changes |
| UserToken.Create | twich/auth/user_token.py:17-39 | construction keeps the configuration; without a token, or with an empty one, it goes straight to `request_new` with no validation request; with a non-empty token it runs the full `__str__` read, validating and renewing as needed; a returned token is non-empty and has a cached expiry |
| UserToken.CachedTokenReturned | twich/auth/user_token.py:44-56 | a token with an unexpired cached expiry is returned as is |
| UserToken.ValidTokenNotRenewed | twich/auth/user_token.py:44-47 | when the token is valid, the result does not depend on anything the renewal would use |
| UserToken.StaleExpiryAlwaysRaises | twich/auth/user_token.py:91-97 | once a cached expiry has passed, renewal keeps it, so the re-check fails and `InvalidTokenException` is raised whatever token arrives |
| UserToken.RenewalDeliversToken | twich/auth/user_token.py:75-97 | without a token or expiry, the first POSTed token that the endpoint validates is returned with expiry `later + expires_in` |
| PubSub.New | twich/pubsub.py:12-26 | a new client is not connected and keeps its topics and reconnect setting |
| PubSub.ListenEnvelope | twich/pubsub.py:29-35 | the LISTEN envelope; `PubSub.ListenRoundTrip` states that it decodes back to its topics and token |
| PubSub.StringsRoundTrip | twich/pubsub.py:32 | the topic list encodes as JSON strings and decodes back |
| PubSub.ListenRoundTrip | twich/pubsub.py:28-35 | the LISTEN envelope has type `LISTEN` and decodes back to exactly its topics and token |
| PubSub.Subscribe | twich/pubsub.py:28-35 | one envelope is sent, and it decodes to exactly the given topics and token; the state is unchanged |
| PubSub.Connect | twich/pubsub.py:105-113 | `is_connected` becomes true and `connect` is recorded; nothing else changes |
| PubSub.Disconnect | twich/pubsub.py:115-118 | `auto_reconnect` is cleared and the socket is closed |
| PubSub.OnOpen | twich/pubsub.py:56-62 | `is_connected` becomes true and one LISTEN for all configured topics is sent, then the hook runs |
| PubSub.OnMessage | twich/pubsub.py:67-82 | `RECONNECT` closes and reconnects with `auto_reconnect` cleared; `PONG` does nothing; any other envelope is forwarded once |
| PubSub.OnMessageAsWritten | twich/pubsub.py:67-68 | as written, every message raises `AttributeError` before it is dispatched, because the raw text is wrapped instead of a dictionary |
| PubSub.OnRawMessage | twich/pubsub.py:67-82 | with the text decoded first: undecodable text is a decode error, a decoded non-dictionary raises `AttributeError`, and a decoded dictionary is dispatched |
| PubSub.RawMessageIsEnvelope | twich/pubsub.py:67-82 | text that decodes to a dictionary is handled exactly as the message event of its unpacked envelope |
| PubSub.SettledPongSwallowed | twich/pubsub.py:67-79 | a `PONG` envelope whose strings do not decode further is swallowed |
| PubSub.OnClose | twich/pubsub.py:94-99 | `is_connected` becomes false and the hook runs, then `connect` is called iff `auto_reconnect` is set; the actions are exactly the hook, then at most that one `connect` |
| PubSub.PingCycle | twich/pubsub.py:48-52 | one `PING` is sent iff the client is connected |
| PubSub.PingLoop | twich/pubsub.py:46-54 | pings are sent exactly while the connection flag holds, and the loop stops at the first cycle where it does not |
| PubSub.ForwardedExactly | twich/pubsub.py:67-82 | over any sequence of events, the messages forwarded are exactly the received envelopes that are neither `PONG` nor `RECONNECT`, in order |
| PubSub.PongNeverForwarded | twich/pubsub.py:77-79 | no `PONG` envelope is ever forwarded |
| PubSub.DeliverableHasNoPong | twich/pubsub.py:70-82 | the deliverable envelopes contain no `PONG` or `RECONNECT` |
| PubSub.AutoReconnectNeverRestored | twich/pubsub.py:115-118 | once `auto_reconnect` is cleared, no event sets it again |
| PubSub.NoReconnectAfterDisconnect | twich/pubsub.py:94-118 | once `auto_reconnect` is cleared, `connect` runs exactly as often as it is requested by the caller or by `RECONNECT`; a close never adds one |
| PubSub.DisconnectThenClose | twich/pubsub.py:94-118 | `disconnect` followed by the close event leaves the client disconnected without a `connect` |
| PubSub.ReconnectThenOpen | twich/pubsub.py:56-75 | a `RECONNECT` followed by open closes, connects, and re-subscribes to all topics, with `auto_reconnect` false |
| Irc.New | twich/irc/irc.py:8-10 | a new client has no socket |
| Irc.IsConnected | twich/irc/irc.py:12-14 | the connection status is whether the socket attribute exists |
| Irc.CommandActions | twich/irc/irc.py:16-24 | the command is sent once, framed with `\r\n`, as the last action; it is echoed as `< command` iff it does not start with `PASS` |
| Irc.SendCommand | twich/irc/irc.py:16-24 | the echo `< command` is printed unless the command starts with `PASS`, with or without a socket; the framed command is sent iff a socket exists; without one the call ends in `AttributeError` |
| Irc.EchoBeforeRaise | twich/irc/irc.py:16-24 | without a socket, `send_command` does everything it does with one except the final write |
| Irc.SendMessage | twich/irc/irc.py:26-28 | `< PRIVMSG #channel : text` is always printed; that line with `\r\n` is sent iff a socket exists, and otherwise the call raises |
| Irc.JoinOne | twich/irc/irc.py:43-44 | one `JOIN #channel` is sent and echoed, then `Joined #channel` is printed |
| Irc.JoinActions | twich/irc/irc.py:42-44 | one `JOIN` per channel is sent, in list order; per channel the console shows `< JOIN #c` and then `Joined #c`, and no password is echoed |
| Irc.Login | twich/irc/irc.py:38-39 | `PASS token` then `NICK login` are sent; only the NICK is echoed |
| Irc.Connect | twich/irc/irc.py:30-44 | the client is connected; the sent lines are `PASS`, `NICK` and one `JOIN` per channel, in order; the console shows `< NICK login` and then each channel's `< JOIN #c` and `Joined #c`, so no printed line starts with `< PASS` |
| Irc.Lines | twich/irc/irc.py:57-60 | the lines of a read are its `\r\n`-separated pieces with the empty ones dropped, so none is empty; `Irc.NonEmptyAppend` states that the others are all kept, in order |
| Irc.NonEmptyAppend | twich/irc/irc.py:57-60 | skipping empty pieces keeps every non-empty piece in its place: filtering a concatenation is the concatenation of the filtered parts |
| Irc.LeadingBreak | twich/irc/irc.py:57-60 | a read that starts with the `\r\n` of a line cut by the previous read still yields the line after it |
| Irc.LinesOfJoin | twich/irc/irc.py:57-60 | non-empty lines without `\r`, sent joined by `\r\n` in one read, come back as exactly those lines |
| Irc.LineActions | twich/irc/irc.py:63-70 | a line whose command is `PING` gets an echoed `PONG :tmi.twitch.tv` sent before it is yielded; any other line is only yielded |
| Irc.PongsAppend | twich/irc/irc.py:57-70 | the PING/PONG pairing survives concatenation of line traces |
| Irc.LinesActions | twich/irc/irc.py:57-70 | the lines are yielded in order, each with its parsed command; every PONG sent is immediately followed by a yielded PING and every yielded PING is immediately preceded by a PONG |
| Irc.FeedChunk | twich/irc/irc.py:55-70 | one chunk yields exactly its non-empty `\r\n`-separated pieces, in order, each with its parsed command, with the PONG-before-PING pairing |
| Irc.FeedChunks | twich/irc/irc.py:54-70 | over every read, each yielded `PING` comes right after a `PONG` and every `PONG` right before a `PING`; each yielded line carries its parsed command; the loop sends nothing but `PONG :tmi.twitch.tv` and prints nothing but its echo |
| Irc.NoCarryOver | twich/irc/irc.py:54-60 | the lines yielded for several chunks are each chunk's lines in turn |
| Irc.CutLineSplit | twich/irc/irc.py:55-57 | a line whose bytes arrive in two reads is yielded as two separate lines |
| Irc.PingAnswered | twich/irc/irc.py:63-70 | a chunk holding one PING line produces exactly the PONG echo, the PONG and the PING |
| Irc.Opening | twich/irc/irc.py:46-51 | the password is sent before the loop iff there is no socket yet |
| Irc.Feed | twich/irc/irc.py:46-70 | after `feed` the client is connected; `PASS` is sent iff it was not connected before; the yielded lines are those of the chunks; after the connecting part, every `PING` is answered by a `PONG` sent just before it is yielded, and each line carries its parsed command; no printed line starts with `< PASS` |
| Irc.FeedTrace | twich/irc/irc.py:50-70 | PONG traffic after the handshake sends no `PASS` line and prints no line starting with `< PASS` |
| Text.Split | twich/auth/authapp.py:91 | Python's `str.split`: always at least one piece, empty text included |
| Text.JoinSplit | twich/auth/authapp.py:91-93 | joining the pieces of a split with the same separator gives the text back |
| Text.SplitJoin | twich/auth/user_token.py:104 | splitting a join gives the parts back when no part contains the separator's first character |

## Left out

- **Flask web app.** The thread it runs in, its routes and the HTML and JavaScript redirect page are not modelled. The Werkzeug shutdown call is only a boolean: does a shutdown hook exist. These are web-framework I/O.
- **Browser and polling.** The browser launch and the one-second poll of `request_new` become a finite list of POSTed bodies. If none of them completes the transaction, the outcome is `Waiting`, not an endless loop.
- **Clock and HTTP.** The clock and the HTTP library are parameters. A network exception is the single error `TransportFailure`.
- **JSON numbers.** They are integers, because floating point is not modelled. A boolean `expires_in` counts as 0 or 1, as in Python.
- **JSON text syntax.** `json.loads` is an abstract parser.
- **Repeated keys in a JSON object.** `json.loads` keeps the last value for a repeated key. The model's object lookup takes the first. This only matters for malformed responses.
- **Non-dictionary responses.** On a body that decodes to anything but a dictionary, `send` fails somewhere along `'status' in content`, `content['status']` and `unpack_json`: a number, `null` or a boolean makes the `in` test raise `TypeError`; a list or a string passes it or fails later with `TypeError` or `AttributeError`. The model reports every such body as the one error `NotAnObject`.
- **Raw text in PubSub messages.** As written, `_on_message` never dispatches anything (see Findings). The events of `PubSub.Run` carry the envelope after decoding and `unpack_json`: what `PubSub.OnRawMessage` hands to `PubSub.OnMessage`.
- **`_on_error`.** It is not modelled. It has the defect of the Findings row for `_on_message`: it passes the exception object that websocket-client hands it to `TwitchAPIResponse`, whose `unpack_json` calls `.items()` on it (twich/pubsub.py:87-89, twich/request.py:62), so it raises `AttributeError` and never reaches the `on_error` hook.
- **PubSub log output.** The printing done when `log` is set is left out.
- **Ping loop timing.** The 270-second sleeps and the daemon thread are left out. Only the per-cycle decision is modelled.
- Irc.Connect: the password token and the login are plain parameters. In the source `PASS` interpolates `str(user_token)`, which can renew the token or raise `InvalidTokenException`, and `NICK` reads `user_token.login`, which raises `AttributeError` before any successful validation. Such a failure, and the state it leaves (the socket attribute is already set, so `is_connected` is true and a later `feed` skips `connect`), is not modelled.
- **Failures inside callbacks.** An exception raised by reading the token inside `subscribe` is not modelled. The token is a parameter.
- **Sending on a closed WebSocket.** This failure is not modelled.
- **IRC socket.** TLS socket creation, the connection and `recv` are left out. The source passes the host `wss://irc.chat.twitch.tv` to `socket.connect` (twich/irc/irc.py:35), a URL rather than a host name, so a real `connect` would fail there before any `PASS` is sent; the model treats the connection as made. Each read is one chunk of already decoded text, so the UTF-8 decode and any decode errors are not modelled.
- **`create_twitch_message`.** It is not part of this model. It is an abstract function giving each raw line's command.
- **IRC message limit.** The 2048-byte read size does not bound the chunks.
- **Exceptions and packaging.** The exception classes of `twich/exceptions.py` and `twich/auth/exceptions.py` are the `Errors.Error` datatype. `setup.py` is packaging and is not modelled.
- UserToken.RequestNew: the model reproduces the stale cached expiry after a renewal rather than correcting it. The receiver writes only the token, so an `expires_at` that has already passed makes every renewal raise. `UserToken.StaleExpiryAlwaysRaises` states this.
- UserToken.Read: identity fields read before any successful validation raise `AttributeError` in Python. The model represents them as an absent `identity`.

## Findings

| source | as written | input that shows it | evidently intended | confidence | as-written member | corrected member |
|---|---|---|---|---|---|---|
| twich/pubsub.py:67-68 | `TwitchAPIResponse(message)` wraps the raw WebSocket text, and `unpack_json` then calls `.items()` on a `str`, which raises `AttributeError` | any text frame, for example `{"type": "PONG"}` | `TwitchAPIResponse(json.loads(message))`: decode, then unpack and dispatch | high; not executed | PubSub.OnMessageAsWritten | PubSub.OnRawMessage |

=== FILE: authapp.dfy ===
/** The local OAuth callback receiver: the POST handler that reads the URL
    fragment the browser relays (`#access_token=...&scope=...`), writes the
    token into its owner and marks the transaction as completed. The web
    framework around it is not modelled; only whether a shutdown hook exists
    is a parameter. */
module AuthApp {
  import opened Wrappers
  import opened Text
  import opened Errors

  /** The part of the receiver's state the rest of the library observes:
      the owner's token and the `transaction_completed` flag. */
  datatype Callback = Callback(token: Option<string>, completed: bool)

  /** One `key=value` parameter. */
  datatype Param = Param(key: string, value: string)

  /** A freshly constructed receiver for an owner holding `token`. */
  function Start(token: Option<string>): (c: Callback)
    ensures !c.completed
    ensures c.token == token
  {
    Callback(token, false)
  }

  /** `string[1:]`: the first character is dropped whatever it is. */
  function Fragment(body: string): (r: string)
    ensures |body| == 0 ==> r == ""
    ensures |body| > 0 ==> [body[0]] + r == body
  {
    if |body| == 0 then "" else body[1..]
  }

  /** `key, value = segment.split('=')`: a parameter exactly when the
      segment holds a single `=`, and then the segment is `key=value`. */
  function ParamOf(segment: string): (r: Option<Param>)
    ensures r.Some? <==> Count(segment, '=') == 1
    ensures r.Some? ==> r.value.key + "=" + r.value.value == segment
    ensures r.Some? ==> '=' !in r.value.key && '=' !in r.value.value
  {
    SplitCount(segment, '=');
    JoinSplit(segment, "=");
    SplitPiecesFree(segment, '=');
    var parts := Split(segment, "=");
    if |parts| == 2 then Some(Param(parts[0], parts[1])) else None
  }

  /** The parameter dictionary built by the loop over the segments: each
      well-formed segment in turn stores its value under its key. */
  function Params(segments: seq<string>): map<string, string>
    decreases |segments|
  {
    if |segments| == 0 then map[]
    else
      var m := Params(segments[..|segments| - 1]);
      match ParamOf(segments[|segments| - 1])
      case None => m
      case Some(p) => m[p.key := p.value]
  }

  /** Segment `i` is the last well-formed segment that defines `key`. */
  ghost predicate LastDefinition(segments: seq<string>, i: int, key: string) {
    && 0 <= i < |segments|
    && ParamOf(segments[i]).Some?
    && ParamOf(segments[i]).value.key == key
    && forall j :: i < j < |segments| && ParamOf(segments[j]).Some? ==> ParamOf(segments[j]).value.key != key
  }

  /** The dictionary holds exactly the keys of well-formed segments, and
      each key maps to the value of the last segment that defines it. */
  lemma {:induction false} ParamsLastWins(segments: seq<string>, key: string)
    ensures key in Params(segments) <==>
              exists i :: 0 <= i < |segments| && ParamOf(segments[i]).Some? && ParamOf(segments[i]).value.key == key
    ensures key in Params(segments) ==>
              exists i :: LastDefinition(segments, i, key) && Params(segments)[key] == ParamOf(segments[i]).value.value
    decreases |segments|
  {
    if |segments| > 0 {
      var n := |segments| - 1;
      var init := segments[..n];
      ParamsLastWins(init, key);
      assert forall i :: 0 <= i < n ==> init[i] == segments[i];
      var last := ParamOf(segments[n]);
      if last.Some? && last.value.key == key {
        assert LastDefinition(segments, n, key);
      } else if key in Params(init) {
        var i :| LastDefinition(init, i, key) && Params(init)[key] == ParamOf(init[i]).value.value;
        assert LastDefinition(segments, i, key);
      }
    }
  }

  /** The parameters of a posted body: drop the first character, split on
      `&`, keep the well-formed segments. */
  function ParseFragment(body: string): map<string, string> {
    Params(Split(Fragment(body), "&"))
  }

  /** No received key or value contains `&` or `=`: those characters only
      ever separate parameters. */
  lemma FragmentParamsClean(body: string, key: string)
    requires key in ParseFragment(body)
    ensures '&' !in key && '=' !in key
    ensures '&' !in ParseFragment(body)[key] && '=' !in ParseFragment(body)[key]
  {
    var segments := Split(Fragment(body), "&");
    SplitPiecesFree(Fragment(body), '&');
    ParamsLastWins(segments, key);
    var i :| LastDefinition(segments, i, key) && Params(segments)[key] == ParamOf(segments[i]).value.value;
    var p := ParamOf(segments[i]).value;
    assert p.key + "=" + p.value == segments[i];
    assert '&' !in segments[i];
  }

  /** What the handler leaves behind: the receiver state and the HTTP reply
      or the exception it raised. */
  datatype Reply = Reply(state: Callback, result: Result<string, Error>)

  /** The POST handler. Without an `access_token` parameter it raises and
      changes nothing; otherwise it writes the token, then sets the
      completion flag, and only then looks for the shutdown hook, so both
      writes survive a missing hook. */
  function Receive(c: Callback, body: string, hasShutdown: bool): (r: Reply)
    ensures "access_token" !in ParseFragment(body) <==> r.result == Failure(KeyError("access_token"))
    ensures "access_token" !in ParseFragment(body) ==> r.state == c
    ensures "access_token" in ParseFragment(body) ==>
              r.state.completed && r.state.token == Some(ParseFragment(body)["access_token"])
    ensures r.result.Success? <==> "access_token" in ParseFragment(body) && hasShutdown
    ensures r.result.Success? ==> r.result.value == "TRANSACTION COMPLETED"
    ensures "access_token" in ParseFragment(body) && !hasShutdown ==> r.result == Failure(NotWerkzeug)
  {
    var params := ParseFragment(body);
    if "access_token" !in params then Reply(c, Failure(KeyError("access_token")))
    else
      var written := c.(token := Some(params["access_token"]));
      var marked := written.(completed := true);
      if !hasShutdown then Reply(marked, Failure(NotWerkzeug))
      else Reply(marked, Success("TRANSACTION COMPLETED"))
  }

  /** The receiver state after a POST does not depend on the shutdown hook. */
  lemma StateIndependentOfShutdown(c: Callback, body: string)
    ensures Receive(c, body, true).state == Receive(c, body, false).state
  {
  }

  /** The leading character is discarded whether or not it is `#`. */
  lemma FirstCharacterIgnored(a: char, b: char, rest: string)
    ensures ParseFragment([a] + rest) == ParseFragment([b] + rest)
  {
    assert Fragment([a] + rest) == rest == Fragment([b] + rest);
  }

  /** A body made of `&`-joined segments, one of them `access_token=T`
      with no later redefinition, hands `T` to the owner, whatever the
      other segments are (malformed ones included) and even when `T` is
      empty. */
  lemma ReceiveExtractsToken(c: Callback, lead: char, segments: seq<string>, i: nat, t: string, hasShutdown: bool)
    requires i < |segments|
    requires forall j :: 0 <= j < |segments| ==> '&' !in segments[j]
    requires segments[i] == "access_token=" + t
    requires '=' !in t
    requires forall j :: i < j < |segments| && ParamOf(segments[j]).Some? ==> ParamOf(segments[j]).value.key != "access_token"
    ensures Receive(c, [lead] + Join(segments, "&"), hasShutdown).state == Callback(Some(t), true)
  {
    var body := [lead] + Join(segments, "&");
    assert Fragment(body) == Join(segments, "&");
    SplitJoin(segments, "&");
    assert Split(Fragment(body), "&") == segments;
    TokenSegment(t);
    assert LastDefinition(segments, i, "access_token");
    ParamsLastWins(segments, "access_token");
    var k :| LastDefinition(segments, k, "access_token") && Params(segments)["access_token"] == ParamOf(segments[k]).value.value;
    assert k == i;
  }

  /** `access_token=T` is a well-formed segment defining `T`. */
  lemma TokenSegment(t: string)
    requires '=' !in t
    ensures ParamOf("access_token=" + t) == Some(Param("access_token", t))
  {
    var seg := "access_token=" + t;
    SingleEquals("access_token", t);
    assert seg == "access_token" + "=" + t;
    var p := ParamOf(seg).value;
    assert p.key + "=" + p.value == "access_token" + "=" + t;
    KeyValueUnique(p.key, p.value, "access_token", t);
  }

  /** A body with no well-formed `access_token` segment is rejected and
      leaves the owner's token and the completion flag as they were. */
  lemma ReceiveMissingToken(c: Callback, body: string, hasShutdown: bool)
    requires forall j :: 0 <= j < |Split(Fragment(body), "&")| ==>
               var p := ParamOf(Split(Fragment(body), "&")[j]); p.None? || p.value.key != "access_token"
    ensures Receive(c, body, hasShutdown) == Reply(c, Failure(KeyError("access_token")))
  {
    ParamsLastWins(Split(Fragment(body), "&"), "access_token");
  }

  /** `k=v` holds a single `=` when neither side has one. */
  lemma SingleEquals(k: string, v: string)
    requires '=' !in k && '=' !in v
    ensures Count(k + "=" + v, '=') == 1
  {
    CountAbsent(k, '=');
    CountAbsent(v, '=');
    CountConcat(k, "=", '=');
    CountConcat(k + "=", v, '=');
  }

  lemma {:induction false} CountConcat(a: string, b: string, ch: char)
    ensures Count(a + b, ch) == Count(a, ch) + Count(b, ch)
    decreases |a|
  {
    if |a| > 0 {
      assert (a + b)[1..] == a[1..] + b;
      CountConcat(a[1..], b, ch);
    } else {
      assert a + b == b;
    }
  }

  lemma {:induction false} CountAbsent(s: string, ch: char)
    requires ch !in s
    ensures Count(s, ch) == 0
    decreases |s|
  {
    if |s| > 0 {
      assert s[0] != ch;
      CountAbsent(s[1..], ch);
    }
  }

  /** `k=v` determines `k` and `v` when neither key contains `=`. */
  lemma KeyValueUnique(k1: string, v1: string, k2: string, v2: string)
    requires '=' !in k1 && '=' !in k2
    requires k1 + "=" + v1 == k2 + "=" + v2
    ensures k1 == k2 && v1 == v2
  {
    var s := k1 + "=" + v1;
    assert forall j :: 0 <= j < |k1| ==> s[j] == k1[j] != '=';
    assert forall j :: 0 <= j < |k2| ==> s[j] == k2[j] != '=';
    assert s[|k1|] == '=' && s[|k2|] == '=';
    assert |k1| == |k2|;
    assert k1 == s[..|k1|] == k2;
    assert v1 == s[|k1| + 1..] == v2;
  }
}

=== FILE: errors.dfy ===
/** The exceptions the core raises, as one datatype. */
module Errors {
  import Json

  datatype Error =
    /** `TwitchRequestError`: the API answered with a `status` field. */
    | RequestError(status: Json.Value, message: Json.Value)
    /** `InvalidTokenException`: a freshly renewed token still fails validation. */
    | InvalidToken
    /** `KeyError` from a missing dictionary key. */
    | KeyError(key: string)
    /** `ValueError` from an unsupported HTTP method. */
    | ValueError(reason: string)
    /** `AttributeError` from reading an attribute that was never set. */
    | AttributeError(name: string)
    /** `TypeError`/`AttributeError` from treating a non-object body as a dict. */
    | NotAnObject
    /** `TypeError` from adding a non-number to the clock. */
    | TypeError
    /** `json.JSONDecodeError` from an undecodable body. */
    | DecodeError
    /** `RuntimeError` when the callback finds no Werkzeug shutdown hook. */
    | NotWerkzeug
    /** Any exception raised by the HTTP library itself. */
    | TransportFailure
}

=== FILE: irc.dfy ===
/** The IRC chat client: command framing and its console trace, the
    connect handshake, and one pass of the receive loop over a chunk read
    from the socket. The socket is represented only by whether it exists;
    the chunks are parameters, and the message parser is the abstract
    `command` function giving the IRC command of a raw line. */
module Irc {
  import opened Wrappers
  import opened Text
  import opened Errors

  /** `connected` is whether the `irc` socket attribute has been set. */
  datatype Client = Client(channels: seq<string>, connected: bool)

  /** What the client does, in order. */
  datatype Action =
    | Print(line: string)                  // a line written to the console
    | Transmit(data: string)               // bytes written to the socket
    | Yield(raw: string, command: string)  // a message handed to the consumer

  const Pong: string := "PONG :tmi.twitch.tv"

  /** A new client has no socket. */
  function New(channels: seq<string>): (c: Client)
    ensures !c.connected && c.channels == channels
  {
    Client(channels, false)
  }

  /** `is_connected`: exactly whether the socket attribute exists. */
  predicate IsConnected(c: Client) {
    c.connected
  }

  /** The data written to the socket, in order. */
  function Transmitted(actions: seq<Action>): seq<string> {
    if |actions| == 0 then []
    else (if actions[0].Transmit? then [actions[0].data] else []) + Transmitted(actions[1..])
  }

  /** The lines printed to the console, in order. */
  function Printed(actions: seq<Action>): seq<string> {
    if |actions| == 0 then []
    else (if actions[0].Print? then [actions[0].line] else []) + Printed(actions[1..])
  }

  /** The raw lines handed to the consumer, in order. */
  function Yielded(actions: seq<Action>): seq<string> {
    if |actions| == 0 then []
    else (if actions[0].Yield? then [actions[0].raw] else []) + Yielded(actions[1..])
  }

  lemma Single(a: Action)
    ensures Transmitted([a]) == if a.Transmit? then [a.data] else []
    ensures Printed([a]) == if a.Print? then [a.line] else []
    ensures Yielded([a]) == if a.Yield? then [a.raw] else []
  {
    assert [a][1..] == [];
  }

  /** The three projections distribute over concatenation. */
  lemma {:induction false} Project(a: seq<Action>, b: seq<Action>)
    ensures Transmitted(a + b) == Transmitted(a) + Transmitted(b)
    ensures Printed(a + b) == Printed(a) + Printed(b)
    ensures Yielded(a + b) == Yielded(a) + Yielded(b)
    decreases |a|
  {
    if |a| > 0 {
      assert (a + b)[1..] == a[1..] + b;
      Project(a[1..], b);
    } else {
      assert a + b == b;
    }
  }

  /** The console echo of a command. */
  function Echo(command: string): string {
    "< " + command
  }

  /** A string that differs from `prefix` at some position does not start
      with it. */
  lemma NotPrefixed(s: string, prefix: string, k: nat)
    requires k < |s| && k < |prefix| && s[k] != prefix[k]
    ensures !StartsWith(s, prefix)
  {
  }

  /** The body of `send_command` once the socket exists: the command is
      echoed unless it is a password, then written with `\r\n`. */
  function CommandActions(command: string): (r: seq<Action>)
    ensures |r| >= 1 && r[|r| - 1] == Transmit(command + CRLF)
    ensures Transmitted(r) == [command + CRLF]
    ensures Printed(r) == if StartsWith(command, "PASS") then [] else [Echo(command)]
    ensures Yielded(r) == []
  {
    Single(Print(Echo(command)));
    Single(Transmit(command + CRLF));
    Project([Print(Echo(command))], [Transmit(command + CRLF)]);
    if StartsWith(command, "PASS") then [Transmit(command + CRLF)]
    else [Print(Echo(command))] + [Transmit(command + CRLF)]
  }

  /** What one `send_command` call does: its actions, and the exception it
      ends in, if any. */
  datatype Sent = Sent(actions: seq<Action>, error: Option<Error>)

  /** `send_command`: the echo is printed first, so before `connect` the
      command is still echoed (unless it is a password) and only then does
      the missing socket raise `AttributeError`. */
  function SendCommand(c: Client, command: string): (r: Sent)
    ensures r.error.Some? <==> !IsConnected(c)
    ensures r.error.Some? ==> r.error.value == AttributeError("irc")
    ensures Printed(r.actions) == if StartsWith(command, "PASS") then [] else [Echo(command)]
    ensures Transmitted(r.actions) == if IsConnected(c) then [command + CRLF] else []
    ensures Yielded(r.actions) == []
  {
    if c.connected then Sent(CommandActions(command), None)
    else
      Single(Print(Echo(command)));
      Sent(if StartsWith(command, "PASS") then [] else [Print(Echo(command))], Some(AttributeError("irc")))
  }

  /** Without a socket, `send_command` does everything it would do with one
      except the final write. */
  lemma EchoBeforeRaise(channels: seq<string>, command: string)
    ensures SendCommand(Client(channels, false), command).actions + [Transmit(command + CRLF)]
            == SendCommand(Client(channels, true), command).actions
  {
  }

  /** `send_message`: one PRIVMSG command, always echoed. */
  function SendMessage(c: Client, channel: string, text: string): (r: Sent)
    ensures r.error.Some? <==> !IsConnected(c)
    ensures Printed(r.actions) == [Echo("PRIVMSG #" + channel + " : " + text)]
    ensures Transmitted(r.actions) ==
              if IsConnected(c) then ["PRIVMSG #" + channel + " : " + text + CRLF] else []
  {
    NotPrefixed("PRIVMSG #" + channel + " : " + text, "PASS", 1);
    SendCommand(c, "PRIVMSG #" + channel + " : " + text)
  }

  /** No console line is the echo of a `PASS` command: none starts with
      `< PASS`. */
  predicate NoPasswordEcho(lines: seq<string>) {
    forall i :: 0 <= i < |lines| ==> !StartsWith(lines[i], "< PASS")
  }

  /** Two pieces of output one after the other. */
  lemma Then(a: seq<Action>, b: seq<Action>, ta: seq<string>, pa: seq<string>, tb: seq<string>, pb: seq<string>)
    requires Transmitted(a) == ta && Printed(a) == pa && Yielded(a) == []
    requires Transmitted(b) == tb && Printed(b) == pb && Yielded(b) == []
    ensures Transmitted(a + b) == ta + tb && Printed(a + b) == pa + pb && Yielded(a + b) == []
  {
    Project(a, b);
  }

  /** The actions for joining one channel. */
  function JoinOne(channel: string): (r: seq<Action>)
    ensures Transmitted(r) == ["JOIN #" + channel + CRLF]
    ensures Printed(r) == [Echo("JOIN #" + channel), "Joined #" + channel]
    ensures NoPasswordEcho(Printed(r))
    ensures Yielded(r) == []
  {
    var join := "JOIN #" + channel;
    var joined := "Joined #" + channel;
    NotPrefixed(join, "PASS", 0);
    NotPrefixed(Echo(join), "< PASS", 2);
    NotPrefixed(joined, "< PASS", 0);
    Single(Print(joined));
    Then(CommandActions(join), [Print(joined)], [join + CRLF], [Echo(join)], [], [joined]);
    assert [join + CRLF] + [] == [join + CRLF];
    CommandActions(join) + [Print(joined)]
  }

  /** What the console shows for joining the channels: per channel, in list
      order, the echo of its JOIN and then its `Joined` line. */
  function JoinLines(channels: seq<string>): seq<string>
  {
    if |channels| == 0 then []
    else [Echo("JOIN #" + channels[0]), "Joined #" + channels[0]] + JoinLines(channels[1..])
  }

  /** The JOIN loop of `connect`: one JOIN per channel, in list order, each
      followed by a `Joined` line. */
  function JoinActions(channels: seq<string>): (r: seq<Action>)
    ensures |Transmitted(r)| == |channels|
    ensures forall i :: 0 <= i < |channels| ==> Transmitted(r)[i] == "JOIN #" + channels[i] + CRLF
    ensures Printed(r) == JoinLines(channels)
    ensures NoPasswordEcho(Printed(r))
    ensures Yielded(r) == []
  {
    if |channels| == 0 then []
    else
      var head := JoinOne(channels[0]);
      var rest := JoinActions(channels[1..]);
      JoinStep(head, rest, channels);
      head + rest
  }

  /** One channel's JOIN in front of the JOINs of the others. */
  lemma JoinStep(head: seq<Action>, rest: seq<Action>, channels: seq<string>)
    requires |channels| > 0
    requires Transmitted(head) == ["JOIN #" + channels[0] + CRLF]
    requires Printed(head) == [Echo("JOIN #" + channels[0]), "Joined #" + channels[0]]
    requires NoPasswordEcho(Printed(head)) && Yielded(head) == []
    requires |Transmitted(rest)| == |channels[1..]|
    requires forall i :: 0 <= i < |channels[1..]| ==> Transmitted(rest)[i] == "JOIN #" + channels[1..][i] + CRLF
    requires Printed(rest) == JoinLines(channels[1..])
    requires NoPasswordEcho(Printed(rest)) && Yielded(rest) == []
    ensures |Transmitted(head + rest)| == |channels|
    ensures forall i :: 0 <= i < |channels| ==> Transmitted(head + rest)[i] == "JOIN #" + channels[i] + CRLF
    ensures Printed(head + rest) == JoinLines(channels)
    ensures NoPasswordEcho(Printed(head + rest))
    ensures Yielded(head + rest) == []
  {
    Project(head, rest);
    EchoAppend(Printed(head), Printed(rest));
    var t := Transmitted(head + rest);
    forall i | 0 <= i < |channels|
      ensures t[i] == "JOIN #" + channels[i] + CRLF
    {
      if i > 0 {
        assert t[i] == Transmitted(rest)[i - 1];
        assert channels[1..][i - 1] == channels[i];
      }
    }
  }

  /** A `PASS` command is a password. */
  lemma PassIsPassword(token: string)
    ensures StartsWith("PASS " + token, "PASS")
  {
    assert ("PASS " + token)[..4] == "PASS";
  }

  /** The PASS and NICK lines that open `connect`. */
  function Login(token: string, login: string): (r: seq<Action>)
    ensures Transmitted(r) == ["PASS " + token + CRLF, "NICK " + login + CRLF]
    ensures Printed(r) == [Echo("NICK " + login)]
    ensures NoPasswordEcho(Printed(r))
    ensures Yielded(r) == []
  {
    var pass := "PASS " + token;
    var nick := "NICK " + login;
    PassIsPassword(token);
    NotPrefixed(nick, "PASS", 0);
    NotPrefixed(Echo(nick), "< PASS", 2);
    Then(CommandActions(pass), CommandActions(nick), [pass + CRLF], [], [nick + CRLF], [Echo(nick)]);
    CommandActions(pass) + CommandActions(nick)
  }

  /** `connect`: authenticate with PASS and NICK, then join every channel in
      order. The password never reaches the console. */
  function Connect(c: Client, token: string, login: string): (r: (Client, seq<Action>))
    ensures IsConnected(r.0) && r.0.channels == c.channels
    ensures |Transmitted(r.1)| == 2 + |c.channels|
    ensures Transmitted(r.1)[0] == "PASS " + token + CRLF
    ensures Transmitted(r.1)[1] == "NICK " + login + CRLF
    ensures forall i :: 0 <= i < |c.channels| ==> Transmitted(r.1)[2 + i] == "JOIN #" + c.channels[i] + CRLF
    ensures Printed(r.1) == [Echo("NICK " + login)] + JoinLines(c.channels)
    ensures NoPasswordEcho(Printed(r.1))
    ensures Yielded(r.1) == []
  {
    Handshake(Login(token, login), JoinActions(c.channels), token, login, c.channels);
    (c.(connected := true), Login(token, login) + JoinActions(c.channels))
  }

  /** The lines of the handshake, put together. */
  lemma Handshake(pre: seq<Action>, joins: seq<Action>, token: string, login: string, channels: seq<string>)
    requires Transmitted(pre) == ["PASS " + token + CRLF, "NICK " + login + CRLF]
    requires Printed(pre) == [Echo("NICK " + login)]
    requires NoPasswordEcho(Printed(pre)) && Yielded(pre) == []
    requires |Transmitted(joins)| == |channels|
    requires forall i :: 0 <= i < |channels| ==> Transmitted(joins)[i] == "JOIN #" + channels[i] + CRLF
    requires Printed(joins) == JoinLines(channels)
    requires NoPasswordEcho(Printed(joins)) && Yielded(joins) == []
    ensures var t := Transmitted(pre + joins);
            && |t| == 2 + |channels|
            && t[0] == "PASS " + token + CRLF
            && t[1] == "NICK " + login + CRLF
            && forall i :: 0 <= i < |channels| ==> t[2 + i] == "JOIN #" + channels[i] + CRLF
    ensures Printed(pre + joins) == [Echo("NICK " + login)] + JoinLines(channels)
    ensures NoPasswordEcho(Printed(pre + joins))
    ensures Yielded(pre + joins) == []
  {
    Project(pre, joins);
    EchoAppend(Printed(pre), Printed(joins));
  }

  lemma EchoAppend(a: seq<string>, b: seq<string>)
    requires NoPasswordEcho(a) && NoPasswordEcho(b)
    ensures NoPasswordEcho(a + b)
  {
    assert forall i :: |a| <= i < |a| + |b| ==> (a + b)[i] == b[i - |a|];
  }

  /** The non-empty pieces of a list, in order. */
  function NonEmpty(pieces: seq<string>): (r: seq<string>)
    ensures forall i :: 0 <= i < |r| ==> |r[i]| > 0
    ensures |r| <= |pieces|
  {
    if |pieces| == 0 then []
    else (if |pieces[0]| > 0 then [pieces[0]] else []) + NonEmpty(pieces[1..])
  }

  /** The lines of one received chunk: split on `\r\n`, empties dropped. */
  function Lines(chunk: string): (r: seq<string>)
    ensures forall i :: 0 <= i < |r| ==> |r[i]| > 0
  {
    NonEmpty(Split(chunk, CRLF))
  }

  /** Non-empty lines without `\r`, sent joined by `\r\n` in one read,
      come back as exactly those lines. */
  lemma LinesOfJoin(lines: seq<string>)
    requires |lines| >= 1
    requires forall i :: 0 <= i < |lines| ==> |lines[i]| > 0 && '\r' !in lines[i]
    ensures Lines(Join(lines, CRLF)) == lines
  {
    SplitJoin(lines, CRLF);
    NonEmptyKeeps(lines);
  }

  /** Dropping empties commutes with concatenation: every non-empty piece
      is kept, in its place. */
  lemma {:induction false} NonEmptyAppend(a: seq<string>, b: seq<string>)
    ensures NonEmpty(a + b) == NonEmpty(a) + NonEmpty(b)
    decreases |a|
  {
    if |a| == 0 {
      assert a + b == b;
    } else {
      assert (a + b)[0] == a[0];
      assert (a + b)[1..] == a[1..] + b;
      NonEmptyAppend(a[1..], b);
    }
  }

  /** A read that starts with the `\r\n` ending a line cut by the previous
      read still yields the line that follows it. */
  lemma LeadingBreak(line: string)
    requires |line| > 0 && '\r' !in line
    ensures Lines(CRLF + line + CRLF) == [line]
  {
    SplitPrefix("", line + CRLF);
    assert "" + CRLF + (line + CRLF) == CRLF + line + CRLF;
    SingleLine(line);
    NonEmptyAppend([""], Split(line + CRLF, CRLF));
    assert NonEmpty([""]) == [] by {
      assert [""][1..] == [];
    }
  }

  lemma {:induction false} NonEmptyKeeps(pieces: seq<string>)
    requires forall i :: 0 <= i < |pieces| ==> |pieces[i]| > 0
    ensures NonEmpty(pieces) == pieces
    decreases |pieces|
  {
    if |pieces| > 0 {
      NonEmptyKeeps(pieces[1..]);
      assert [pieces[0]] + pieces[1..] == pieces;
    }
  }

  /** A line and its reply: a PONG is sent before a PING is yielded. */
  function LineActions(raw: string, command: string -> string): (r: seq<Action>)
    ensures Yielded(r) == [raw]
    ensures command(raw) == "PING" ==> r == [Print(Echo(Pong)), Transmit(Pong + CRLF), Yield(raw, "PING")]
    ensures command(raw) != "PING" ==> r == [Yield(raw, command(raw))]
  {
    NotPrefixed(Pong, "PASS", 1);
    Single(Yield(raw, command(raw)));
    Project(CommandActions(Pong), [Yield(raw, command(raw))]);
    (if command(raw) == "PING" then CommandActions(Pong) else []) + [Yield(raw, command(raw))]
  }

  /** Every transmission is a PONG immediately followed by a yielded PING,
      every yielded PING is immediately preceded by a PONG, and every
      printed line is the echo of a PONG about to be sent. */
  ghost predicate PongsBeforePings(actions: seq<Action>) {
    && (forall i :: 0 <= i < |actions| && actions[i].Transmit? ==>
          && actions[i].data == Pong + CRLF
          && i + 1 < |actions| && actions[i + 1].Yield? && actions[i + 1].command == "PING")
    && (forall i :: 0 <= i < |actions| && actions[i].Yield? && actions[i].command == "PING" ==>
          i >= 1 && actions[i - 1] == Transmit(Pong + CRLF))
    && (forall i :: 0 <= i < |actions| && actions[i].Print? ==>
          actions[i].line == Echo(Pong) && i + 1 < |actions| && actions[i + 1] == Transmit(Pong + CRLF))
  }

  lemma LinePongs(raw: string, command: string -> string)
    ensures PongsBeforePings(LineActions(raw, command))
  {
    if command(raw) == "PING" {
      PongTriple(raw);
    } else {
      LoneYield(raw, command(raw));
    }
  }

  /** The trace of an answered PING is well formed. */
  lemma PongTriple(raw: string)
    ensures PongsBeforePings([Print(Echo(Pong)), Transmit(Pong + CRLF), Yield(raw, "PING")])
  {
    var r := [Print(Echo(Pong)), Transmit(Pong + CRLF), Yield(raw, "PING")];
    forall i | 0 <= i < |r| && r[i].Transmit?
      ensures r[i].data == Pong + CRLF && i + 1 < |r| && r[i + 1].Yield? && r[i + 1].command == "PING"
    {
      assert i == 1;
    }
    forall i | 0 <= i < |r| && r[i].Yield? && r[i].command == "PING"
      ensures i >= 1 && r[i - 1] == Transmit(Pong + CRLF)
    {
      assert i == 2;
    }
    forall i | 0 <= i < |r| && r[i].Print?
      ensures r[i].line == Echo(Pong) && i + 1 < |r| && r[i + 1] == Transmit(Pong + CRLF)
    {
      assert i == 0;
    }
  }

  /** A line that is not a PING is only yielded. */
  lemma LoneYield(raw: string, command: string)
    requires command != "PING"
    ensures PongsBeforePings([Yield(raw, command)])
  {
  }

  /** Two pieces that each answer their own PINGs can be put together. */
  lemma PongsAppend(a: seq<Action>, b: seq<Action>)
    requires PongsBeforePings(a) && PongsBeforePings(b)
    ensures PongsBeforePings(a + b)
  {
    var ab := a + b;
    forall i | 0 <= i < |ab| && ab[i].Yield? && ab[i].command == "PING"
      ensures i >= 1 && ab[i - 1] == Transmit(Pong + CRLF)
    {
      if i >= |a| {
        assert ab[i] == b[i - |a|];
        assert ab[i - 1] == b[i - |a| - 1];
      } else {
        assert ab[i] == a[i];
      }
    }
    forall i | 0 <= i < |ab| && ab[i].Transmit?
      ensures ab[i].data == Pong + CRLF && i + 1 < |ab| && ab[i + 1].Yield? && ab[i + 1].command == "PING"
    {
      if i >= |a| {
        assert ab[i] == b[i - |a|];
        assert ab[i + 1] == b[i + 1 - |a|];
      } else {
        assert ab[i] == a[i];
        assert ab[i + 1] == a[i + 1];
      }
    }
    forall i | 0 <= i < |ab| && ab[i].Print?
      ensures ab[i].line == Echo(Pong) && i + 1 < |ab| && ab[i + 1] == Transmit(Pong + CRLF)
    {
      if i >= |a| {
        assert ab[i] == b[i - |a|];
        assert ab[i + 1] == b[i + 1 - |a|];
      } else {
        assert ab[i] == a[i];
        assert ab[i + 1] == a[i + 1];
      }
    }
  }

  /** The receive loop over the lines of one chunk. */
  function LinesActions(lines: seq<string>, command: string -> string): (r: seq<Action>)
    ensures Yielded(r) == lines
    ensures PongsBeforePings(r)
    ensures Tagged(r, command)
  {
    if |lines| == 0 then []
    else
      var rest := LinesActions(lines[1..], command);
      LinesStep(lines, command, rest);
      LineActions(lines[0], command) + rest
  }

  /** Every yielded line carries the command parsed from it. */
  ghost predicate Tagged(actions: seq<Action>, command: string -> string) {
    forall i :: 0 <= i < |actions| && actions[i].Yield? ==> actions[i].command == command(actions[i].raw)
  }

  /** One more line in front of a well-formed trace keeps it well formed. */
  lemma LinesStep(lines: seq<string>, command: string -> string, rest: seq<Action>)
    requires |lines| > 0
    requires Yielded(rest) == lines[1..]
    requires PongsBeforePings(rest) && Tagged(rest, command)
    ensures var r := LineActions(lines[0], command) + rest;
      Yielded(r) == lines && PongsBeforePings(r) && Tagged(r, command)
  {
    var head := LineActions(lines[0], command);
    Project(head, rest);
    assert [lines[0]] + lines[1..] == lines;
    LinePongs(lines[0], command);
    PongsAppend(head, rest);
    TaggedAppend(head, rest, command);
  }

  lemma TaggedAppend(a: seq<Action>, b: seq<Action>, command: string -> string)
    requires Tagged(a, command) && Tagged(b, command)
    ensures Tagged(a + b, command)
  {
    assert forall i :: |a| <= i < |a| + |b| ==> (a + b)[i] == b[i - |a|];
  }

  /** One iteration of the `feed` loop: the chunk's lines are yielded in
      order, each PING after exactly one PONG reply. */
  function FeedChunk(chunk: string, command: string -> string): (r: seq<Action>)
    ensures Yielded(r) == Lines(chunk)
    ensures forall i :: 0 <= i < |Yielded(r)| ==> |Yielded(r)[i]| > 0
    ensures PongsBeforePings(r)
    ensures Tagged(r, command)
  {
    LinesActions(Lines(chunk), command)
  }

  /** Only PONG traffic: the only data sent is PONG and the only lines
      printed are its echo. */
  ghost predicate PongTraffic(actions: seq<Action>) {
    && (forall i :: 0 <= i < |actions| && actions[i].Transmit? ==> actions[i].data == Pong + CRLF)
    && (forall i :: 0 <= i < |actions| && actions[i].Print? ==> actions[i].line == Echo(Pong))
  }

  /** Successive chunks, each on its own: nothing is carried over. */
  function FeedChunks(chunks: seq<string>, command: string -> string): (r: seq<Action>)
    ensures PongTraffic(r)
    ensures PongsBeforePings(r)
    ensures Tagged(r, command)
  {
    if |chunks| == 0 then []
    else
      var head := FeedChunk(chunks[0], command);
      var rest := FeedChunks(chunks[1..], command);
      PongTrafficAppend(head, rest);
      PongsAppend(head, rest);
      TaggedAppend(head, rest, command);
      head + rest
  }

  lemma PongTrafficAppend(head: seq<Action>, rest: seq<Action>)
    requires PongsBeforePings(head) && PongTraffic(rest)
    ensures PongTraffic(head + rest)
  {
    assert forall i :: |head| <= i < |head| + |rest| ==> (head + rest)[i] == rest[i - |head|];
  }

  /** What PONG traffic shows on the socket and on the console. */
  lemma {:induction false} PongTrafficProjected(actions: seq<Action>)
    requires PongTraffic(actions)
    ensures forall i :: 0 <= i < |Transmitted(actions)| ==> Transmitted(actions)[i] == Pong + CRLF
    ensures forall i :: 0 <= i < |Printed(actions)| ==> Printed(actions)[i] == Echo(Pong)
    decreases |actions|
  {
    if |actions| > 0 {
      assert PongTraffic(actions[1..]) by {
        assert forall i :: 0 <= i < |actions| - 1 ==> actions[1..][i] == actions[i + 1];
      }
      PongTrafficProjected(actions[1..]);
    }
  }

  /** The lines yielded for a list of chunks are the lines of each chunk in
      turn: a line cut by a chunk boundary comes out as two lines. */
  lemma {:induction false} NoCarryOver(chunks: seq<string>, command: string -> string)
    ensures Yielded(FeedChunks(chunks, command)) == ChunkLines(chunks)
    decreases |chunks|
  {
    if |chunks| > 0 {
      NoCarryOver(chunks[1..], command);
      Project(FeedChunk(chunks[0], command), FeedChunks(chunks[1..], command));
    }
  }

  function ChunkLines(chunks: seq<string>): seq<string> {
    if |chunks| == 0 then [] else Lines(chunks[0]) + ChunkLines(chunks[1..])
  }

  /** The output of `feed` before its loop: `connect` runs only when there
      is no socket yet, so the password is sent exactly then. */
  function Opening(c: Client, token: string, login: string): (r: seq<Action>)
    ensures (exists i :: 0 <= i < |Transmitted(r)| && Transmitted(r)[i] == "PASS " + token + CRLF)
              <==> !IsConnected(c)
    ensures NoPasswordEcho(Printed(r))
    ensures Yielded(r) == []
  {
    if c.connected then []
    else
      var r := Connect(c, token, login).1;
      assert Transmitted(r)[0] == "PASS " + token + CRLF;
      r
  }

  /** `feed`, over the chunks received so far: connect first only if there
      is no socket yet, then process each chunk. */
  function Feed(c: Client, token: string, login: string, chunks: seq<string>, command: string -> string)
    : (r: (Client, seq<Action>))
    ensures IsConnected(r.0) && r.0.channels == c.channels
    ensures (exists i :: 0 <= i < |Transmitted(r.1)| && Transmitted(r.1)[i] == "PASS " + token + CRLF)
              <==> !IsConnected(c)
    ensures Yielded(r.1) == ChunkLines(chunks)
    ensures NoPasswordEcho(Printed(r.1))
    ensures var n := |Opening(c, token, login)|;
            && n <= |r.1| && r.1[..n] == Opening(c, token, login)
            && PongsBeforePings(r.1[n..]) && Tagged(r.1[n..], command)
  {
    var pre := Opening(c, token, login);
    var body := FeedChunks(chunks, command);
    NoCarryOver(chunks, command);
    FeedTrace(pre, body, token);
    assert (pre + body)[..|pre|] == pre && (pre + body)[|pre|..] == body;
    (c.(connected := true), pre + body)
  }

  /** Connecting output followed by PONG traffic: the password is sent only
      if the connecting part sent it, and never echoed. */
  lemma FeedTrace(pre: seq<Action>, body: seq<Action>, token: string)
    requires PongTraffic(body)
    requires NoPasswordEcho(Printed(pre))
    ensures (exists i :: 0 <= i < |Transmitted(pre + body)| && Transmitted(pre + body)[i] == "PASS " + token + CRLF)
              <==> (exists i :: 0 <= i < |Transmitted(pre)| && Transmitted(pre)[i] == "PASS " + token + CRLF)
    ensures Yielded(pre + body) == Yielded(pre) + Yielded(body)
    ensures NoPasswordEcho(Printed(pre + body))
  {
    Project(pre, body);
    PongTrafficProjected(body);
    var pass := "PASS " + token + CRLF;
    assert pass[1] != (Pong + CRLF)[1];
    var t := Transmitted(pre + body);
    assert forall i :: |Transmitted(pre)| <= i < |t| ==> t[i] == Transmitted(body)[i - |Transmitted(pre)|];
    if i :| 0 <= i < |t| && t[i] == pass {
      assert i < |Transmitted(pre)|;
      assert Transmitted(pre)[i] == pass;
    }
    if i :| 0 <= i < |Transmitted(pre)| && Transmitted(pre)[i] == pass {
      assert t[i] == pass;
    }
    NotPrefixed(Echo(Pong), "< PASS", 3);
    var p := Printed(pre + body);
    assert forall i :: |Printed(pre)| <= i < |p| ==> p[i] == Printed(body)[i - |Printed(pre)|];
  }

  /** A line whose bytes arrive in two reads is yielded as two lines: the
      loop keeps no buffer between reads. */
  lemma CutLineSplit(first: string, second: string, command: string -> string)
    requires |first| > 0 && '\r' !in first
    requires |second| > 0 && '\r' !in second
    ensures Yielded(FeedChunks([first, second + CRLF], command)) == [first, second]
  {
    NoCarryOver([first, second + CRLF], command);
    NoSeparator(first);
    assert Lines(first) == [first] by {
      assert [first][1..] == [];
    }
    SingleLine(second);
    assert ChunkLines([second + CRLF]) == [second] by {
      assert [second + CRLF][1..] == [];
    }
    assert ChunkLines([first, second + CRLF]) == [first] + ChunkLines([second + CRLF]) by {
      assert [first, second + CRLF][1..] == [second + CRLF];
    }
  }

  /** Without `\r` there is nothing to cut. */
  lemma {:induction false} NoSeparator(s: string)
    requires '\r' !in s
    ensures Split(s, CRLF) == [s]
    decreases |s|
  {
    if |s| > 0 {
      assert s[0] != CRLF[0];
      NoSeparator(s[1..]);
      assert [s[0]] + s[1..] == s;
    }
  }

  /** The protocol's keepalive: a chunk holding one PING line is answered
      with `PONG :tmi.twitch.tv\r\n`, echoed first, before the PING is
      yielded. */
  lemma PingAnswered(line: string, command: string -> string)
    requires |line| > 0 && '\r' !in line
    requires command(line) == "PING"
    ensures FeedChunk(line + CRLF, command) ==
              [Print(Echo(Pong)), Transmit(Pong + CRLF), Yield(line, "PING")]
  {
    SingleLine(line);
    assert LinesActions([line], command) == LineActions(line, command) + LinesActions([], command) by {
      assert [line][1..] == [];
    }
  }

  /** A chunk holding one complete line has that line alone. */
  lemma SingleLine(line: string)
    requires |line| > 0 && '\r' !in line
    ensures Lines(line + CRLF) == [line]
  {
    SplitPrefix(line, "");
    assert line + CRLF + "" == line + CRLF;
    assert Split("", CRLF) == [""];
    assert NonEmpty([""]) == [] by {
      assert [""][1..] == [];
    }
    assert [line, ""][1..] == [""];
  }

  /** A line with no `\r` followed by `\r\n` is cut off as the first piece. */
  lemma {:induction false} SplitPrefix(line: string, rest: string)
    requires '\r' !in line
    ensures Split(line + CRLF + rest, CRLF) == [line] + Split(rest, CRLF)
    decreases |line|
  {
    var s := line + CRLF + rest;
    if |line| == 0 {
      assert s == CRLF + rest;
      assert StartsWith(s, CRLF);
      assert s[|CRLF|..] == rest;
    } else {
      assert s[0] == line[0] != '\r';
      assert !StartsWith(s, CRLF);
      assert s[1..] == line[1..] + CRLF + rest;
      SplitPrefix(line[1..], rest);
      assert [line[0]] + line[1..] == line;
    }
  }
}

=== FILE: json.dfy ===
/** Decoded JSON values as the library sees them after `json.loads`.
    Objects are kept as ordered field lists because Python dicts keep
    insertion order; numbers are integers. */
module Json {
  import opened Wrappers

  datatype Value =
    | Null
    | Bool(b: bool)
    | Num(n: int)
    | Str(s: string)
    | Arr(items: seq<Value>)
    | Obj(fields: seq<Field>)

  datatype Field = Field(key: string, value: Value)

  /** The keys of an object, in insertion order. */
  function Keys(fields: seq<Field>): (ks: seq<string>)
    ensures |ks| == |fields|
    ensures forall i :: 0 <= i < |fields| ==> ks[i] == fields[i].key
  {
    if |fields| == 0 then [] else [fields[0].key] + Keys(fields[1..])
  }

  /** `d.get(key)`: the value stored under `key`, if any. */
  function Get(fields: seq<Field>, key: string): (r: Option<Value>)
    ensures r.None? <==> key !in Keys(fields)
    ensures r.Some? ==> exists i :: 0 <= i < |fields| && fields[i] == Field(key, r.value)
  {
    if |fields| == 0 then None
    else if fields[0].key == key then Some(fields[0].value)
    else Get(fields[1..], key)
  }

  /** `response.get(key)` on a decoded body: nothing for a non-object. */
  function Member(v: Value, key: string): Option<Value> {
    if v.Obj? then Get(v.fields, key) else None
  }

  /** A size bound on a value: never more than the length of any JSON text
      that denotes it (a string needs its quotes, an object its braces and
      one separator per field). */
  function Weight(v: Value): nat {
    match v
    case Str(s) => 1 + |s|
    case Obj(fields) => 1 + FieldsWeight(fields)
    case _ => 1
  }

  function FieldsWeight(fields: seq<Field>): (w: nat)
    ensures forall i :: 0 <= i < |fields| ==> Weight(fields[i].value) < w
  {
    if |fields| == 0 then 0 else 1 + Weight(fields[0].value) + FieldsWeight(fields[1..])
  }

  /** What `json.loads` guarantees and the recursive unpacking relies on for
      termination: whatever a text decodes to is no heavier than the text. */
  ghost predicate Shrinking(parse: string -> Option<Value>) {
    forall text :: parse(text).Some? ==> Weight(parse(text).value) <= |text|
  }
}

=== FILE: pubsub.dfy ===
/** The PubSub client as a state machine: each WebSocket callback and each
    public call is a transition from the two flags `is_connected` and
    `auto_reconnect` to new flags plus the actions it performs, in order.
    The socket, its event loop and the ping thread's sleeps are outside the
    model; the token is what `str(user_token)` produced at that moment. */
module PubSub {
  import opened Wrappers
  import opened Json
  import opened Errors
  import Request

  datatype Client = Client(topics: seq<string>, autoReconnect: bool, isConnected: bool)

  /** What a transition does, in order. */
  datatype Action =
    | Send(envelope: Value)     // an envelope written to the socket
    | Forward(message: Value)   // `on_message(response)` called
    | ConnectCall               // `connect()` entered: ping thread started, event loop run
    | CloseSocket               // `websocket.close()` called
    | OpenHook                  // `on_open()` called
    | CloseHook                 // `on_close()` called

  datatype Step = Step(state: Client, actions: seq<Action>)

  /** A new client has not connected yet. */
  function New(topics: seq<string>, autoReconnect: bool): (c: Client)
    ensures !c.isConnected && c.autoReconnect == autoReconnect && c.topics == topics
  {
    Client(topics, autoReconnect, false)
  }

  function StringValues(items: seq<string>): (vs: seq<Value>)
    ensures |vs| == |items|
    ensures forall i :: 0 <= i < |items| ==> vs[i] == Str(items[i])
  {
    if |items| == 0 then [] else [Str(items[0])] + StringValues(items[1..])
  }

  /** The strings of an array of strings; nothing if some item is not one. */
  function StringsOf(vs: seq<Value>): (r: Option<seq<string>>)
    ensures r.Some? ==> |r.value| == |vs| && forall i :: 0 <= i < |vs| ==> vs[i] == Str(r.value[i])
  {
    if |vs| == 0 then Some([])
    else if !vs[0].Str? then None
    else match StringsOf(vs[1..])
      case None => None
      case Some(rest) => Some([vs[0].s] + rest)
  }

  lemma {:induction false} StringsRoundTrip(items: seq<string>)
    ensures StringsOf(StringValues(items)) == Some(items)
    decreases |items|
  {
    if |items| > 0 {
      var vs := StringValues(items);
      StringsRoundTrip(items[1..]);
      assert vs[0] == Str(items[0]);
      assert vs[1..] == StringValues(items[1..]);
      assert StringsOf(vs) == Some([items[0]] + items[1..]);
      assert [items[0]] + items[1..] == items;
    }
  }

  /** `{"type": "LISTEN", "data": {"topics": [...], "auth_token": token}}`. */
  function ListenEnvelope(topics: seq<string>, token: string): Value {
    Obj([ Field("type", Str("LISTEN")),
          Field("data", Obj([ Field("topics", Arr(StringValues(topics))),
                              Field("auth_token", Str(token)) ])) ])
  }

  /** `{"type": "PING"}`. */
  const PingEnvelope: Value := Obj([Field("type", Str("PING"))])

  /** `response.get('type')`. */
  function TypeOf(envelope: Value): Option<Value> {
    Member(envelope, "type")
  }

  /** Reads a LISTEN envelope back: its topics and its token. */
  function DecodeListen(envelope: Value): Option<(seq<string>, string)> {
    if TypeOf(envelope) != Some(Str("LISTEN")) then None
    else match Member(envelope, "data")
      case None => None
      case Some(data) =>
        match (Member(data, "topics"), Member(data, "auth_token"))
        case (Some(Arr(items)), Some(Str(token))) =>
          (match StringsOf(items)
           case None => None
           case Some(topics) => Some((topics, token)))
        case _ => None
  }

  /** A LISTEN envelope carries exactly the topics and the token it was
      built from. */
  lemma ListenRoundTrip(topics: seq<string>, token: string)
    ensures TypeOf(ListenEnvelope(topics, token)) == Some(Str("LISTEN"))
    ensures DecodeListen(ListenEnvelope(topics, token)) == Some((topics, token))
  {
    StringsRoundTrip(topics);
  }

  predicate IsType(envelope: Value, name: string) {
    TypeOf(envelope) == Some(Str(name))
  }

  /** `subscribe(*topics)`: one LISTEN envelope for exactly these topics. */
  function Subscribe(c: Client, topics: seq<string>, token: string): (r: Step)
    ensures r.state == c && |r.actions| == 1 && r.actions[0].Send?
    ensures DecodeListen(r.actions[0].envelope) == Some((topics, token))
  {
    ListenRoundTrip(topics, token);
    Step(c, [Send(ListenEnvelope(topics, token))])
  }

  /** `connect()`: raise the connected flag, then start pinging and run the
      event loop. */
  function Connect(c: Client): (r: Step)
    ensures r.state.isConnected
    ensures r.state.autoReconnect == c.autoReconnect && r.state.topics == c.topics
    ensures r.actions == [ConnectCall]
  {
    Step(c.(isConnected := true), [ConnectCall])
  }

  /** `disconnect()`: clear `auto_reconnect` first, then close the socket. */
  function Disconnect(c: Client): (r: Step)
    ensures !r.state.autoReconnect
    ensures r.state.isConnected == c.isConnected && r.state.topics == c.topics
    ensures r.actions == [CloseSocket]
  {
    Step(c.(autoReconnect := false), [CloseSocket])
  }

  /** `_on_open`: mark connected, subscribe to all configured topics in one
      envelope, then call the hook. */
  function OnOpen(c: Client, token: string): (r: Step)
    ensures r.state.isConnected
    ensures r.state.autoReconnect == c.autoReconnect && r.state.topics == c.topics
    ensures |r.actions| == 2 && r.actions[0].Send? && r.actions[1] == OpenHook
    ensures DecodeListen(r.actions[0].envelope) == Some((c.topics, token))
  {
    var sub := Subscribe(c.(isConnected := true), c.topics, token);
    Step(sub.state, sub.actions + [OpenHook])
  }

  /** `_on_message` on a decoded envelope: RECONNECT disconnects and
      connects again, PONG is swallowed, anything else (a missing type
      included) goes to the hook. */
  function OnMessage(c: Client, envelope: Value): (r: Step)
    ensures IsType(envelope, "RECONNECT") ==>
              && r.actions == [CloseSocket, ConnectCall]
              && r.state == c.(autoReconnect := false, isConnected := true)
    ensures IsType(envelope, "PONG") ==> r == Step(c, [])
    ensures !IsType(envelope, "RECONNECT") && !IsType(envelope, "PONG") ==> r == Step(c, [Forward(envelope)])
    ensures r.state.topics == c.topics
  {
    if IsType(envelope, "RECONNECT") then
      var off := Disconnect(c);
      var on := Connect(off.state);
      Step(on.state, off.actions + on.actions)
    else if IsType(envelope, "PONG") then Step(c, [])
    else Step(c, [Forward(envelope)])
  }

  /** `_on_message` as written: the raw WebSocket text itself is wrapped
      as the response, so the wrapper sees a string, not a dictionary. */
  function OnMessageAsWritten(c: Client, message: string, parse: string -> Option<Value>): (r: Result<Step, Error>)
    requires Shrinking(parse)
    ensures r == Failure(AttributeError("items"))
  {
    match Request.Response(parse, Str(message))
    case Failure(e) => Failure(e)
    case Success(fields) => Success(OnMessage(c, Obj(fields)))
  }

  /** `_on_message` as evidently intended: the text is decoded first, then
      the decoded dictionary is wrapped (and so unpacked) and dispatched. */
  function OnRawMessage(c: Client, message: string, parse: string -> Option<Value>): (r: Result<Step, Error>)
    requires Shrinking(parse)
    ensures parse(message).None? ==> r == Failure(DecodeError)
    ensures parse(message).Some? && !parse(message).value.Obj? ==> r == Failure(AttributeError("items"))
    ensures r.Success? <==> parse(message).Some? && parse(message).value.Obj?
  {
    match parse(message)
    case None => Failure(DecodeError)
    case Some(content) =>
      match Request.Response(parse, content)
      case Failure(e) => Failure(e)
      case Success(fields) => Success(OnMessage(c, Obj(fields)))
  }

  /** Text that decodes to a dictionary is handled as the message event of
      its unpacked envelope: the envelopes of `Run` are the values after
      decoding and `unpack_json`. */
  lemma RawMessageIsEnvelope(c: Client, message: string, parse: string -> Option<Value>, fields: seq<Field>)
    requires Shrinking(parse)
    requires parse(message) == Some(Obj(fields))
    ensures OnRawMessage(c, message, parse) == Success(Apply(c, MessageEvent(Obj(Request.UnpackFields(parse, fields)))))
  {
    var unpacked := Request.UnpackFields(parse, fields);
    assert Request.Response(parse, Obj(fields)) == Success(unpacked);
    assert Apply(c, MessageEvent(Obj(unpacked))) == OnMessage(c, Obj(unpacked));
  }

  /** A `PONG` envelope whose strings do not decode further is swallowed:
      unpacking leaves it as it is, so its type is still `PONG`. */
  lemma SettledPongSwallowed(c: Client, message: string, parse: string -> Option<Value>, fields: seq<Field>)
    requires Shrinking(parse)
    requires parse(message) == Some(Obj(fields))
    requires Request.FieldsSettled(parse, fields)
    requires IsType(Obj(fields), "PONG")
    ensures OnRawMessage(c, message, parse) == Success(Step(c, []))
  {
    Request.FieldsFixedIffSettled(parse, fields);
  }

  /** `_on_close`: clear the connected flag, call the hook, and reconnect
      exactly when `auto_reconnect` is still set. */
  function OnClose(c: Client): (r: Step)
    ensures r.state.isConnected <==> c.autoReconnect
    ensures r.state.autoReconnect == c.autoReconnect && r.state.topics == c.topics
    ensures |r.actions| >= 1 && r.actions[0] == CloseHook
    ensures ConnectCall in r.actions <==> c.autoReconnect
    ensures r.actions == if c.autoReconnect then [CloseHook, ConnectCall] else [CloseHook]
  {
    var closed := c.(isConnected := false);
    if closed.autoReconnect then
      var on := Connect(closed);
      Step(on.state, [CloseHook] + on.actions)
    else Step(closed, [CloseHook])
  }

  /** One cycle of the ping thread: a PING envelope only while connected. */
  function PingCycle(c: Client): (r: Step)
    ensures r.state == c
    ensures c.isConnected ==> r.actions == [Send(PingEnvelope)]
    ensures !c.isConnected ==> r.actions == []
    ensures forall i :: 0 <= i < |r.actions| ==> IsType(r.actions[i].envelope, "PING")
  {
    if c.isConnected then Step(c, [Send(PingEnvelope)]) else Step(c, [])
  }

  /** The whole life of one ping thread, given the value of `is_connected`
      it reads at the start of each cycle: it pings while the flag is set
      and ends at the first cycle that finds it clear. */
  function PingLoop(observed: seq<bool>): (pings: nat)
    ensures pings <= |observed|
    ensures forall i :: 0 <= i < pings ==> observed[i]
    ensures pings < |observed| ==> !observed[pings]
  {
    if |observed| == 0 || !observed[0] then 0
    else
      var rest := PingLoop(observed[1..]);
      assert forall i :: 1 <= i < 1 + rest ==> observed[i] == observed[1..][i - 1];
      1 + rest
  }

  datatype Event =
    | ConnectEvent
    | OpenEvent(token: string)
    | MessageEvent(envelope: Value)
    | CloseEvent
    | DisconnectEvent
    | PingEvent
    | SubscribeEvent(topics: seq<string>, token: string)

  function Apply(c: Client, e: Event): Step {
    match e
    case ConnectEvent => Connect(c)
    case OpenEvent(token) => OnOpen(c, token)
    case MessageEvent(envelope) => OnMessage(c, envelope)
    case CloseEvent => OnClose(c)
    case DisconnectEvent => Disconnect(c)
    case PingEvent => PingCycle(c)
    case SubscribeEvent(topics, token) => Subscribe(c, topics, token)
  }

  /** A run of events, one after the other; the actions are concatenated. */
  function Run(c: Client, events: seq<Event>): Step
    decreases |events|
  {
    if |events| == 0 then Step(c, [])
    else
      var first := Apply(c, events[0]);
      var rest := Run(first.state, events[1..]);
      Step(rest.state, first.actions + rest.actions)
  }

  /** The messages handed to `on_message`, in order. */
  function Forwarded(actions: seq<Action>): seq<Value> {
    if |actions| == 0 then []
    else (if actions[0].Forward? then [actions[0].message] else []) + Forwarded(actions[1..])
  }

  /** The received envelopes that are neither RECONNECT nor PONG, in order. */
  function Deliverable(events: seq<Event>): seq<Value> {
    if |events| == 0 then [] else Delivers(events[0]) + Deliverable(events[1..])
  }

  function Delivers(e: Event): seq<Value> {
    if e.MessageEvent? && !IsType(e.envelope, "RECONNECT") && !IsType(e.envelope, "PONG")
    then [e.envelope] else []
  }

  /** How many times `connect()` is entered. */
  function Connects(actions: seq<Action>): nat {
    if |actions| == 0 then 0 else (if actions[0] == ConnectCall then 1 else 0) + Connects(actions[1..])
  }

  /** Connections asked for explicitly: `connect()` calls and RECONNECT
      envelopes. */
  function Requests(e: Event): nat {
    if e.ConnectEvent? || (e.MessageEvent? && IsType(e.envelope, "RECONNECT")) then 1 else 0
  }

  function Requested(events: seq<Event>): nat {
    if |events| == 0 then 0 else Requests(events[0]) + Requested(events[1..])
  }

  lemma {:induction false} ForwardedAppend(a: seq<Action>, b: seq<Action>)
    ensures Forwarded(a + b) == Forwarded(a) + Forwarded(b)
    decreases |a|
  {
    if |a| > 0 {
      assert (a + b)[1..] == a[1..] + b;
      ForwardedAppend(a[1..], b);
    } else {
      assert a + b == b;
    }
  }

  lemma {:induction false} ConnectsAppend(a: seq<Action>, b: seq<Action>)
    ensures Connects(a + b) == Connects(a) + Connects(b)
    decreases |a|
  {
    if |a| > 0 {
      assert (a + b)[1..] == a[1..] + b;
      ConnectsAppend(a[1..], b);
    } else {
      assert a + b == b;
    }
  }

  /** Every envelope other than RECONNECT and PONG reaches `on_message`
      exactly once and in arrival order; nothing else ever does. */
  lemma {:induction false} ForwardedExactly(c: Client, events: seq<Event>)
    ensures Forwarded(Run(c, events).actions) == Deliverable(events)
    decreases |events|
  {
    if |events| > 0 {
      var first := Apply(c, events[0]);
      StepForwards(c, events[0]);
      ForwardedExactly(first.state, events[1..]);
      ForwardedAppend(first.actions, Run(first.state, events[1..]).actions);
    }
  }

  /** One event forwards its envelope exactly when it is deliverable. */
  lemma StepForwards(c: Client, e: Event)
    ensures Forwarded(Apply(c, e).actions) == Delivers(e)
  {
    var actions := Apply(c, e).actions;
    if |Delivers(e)| == 1 {
      assert actions == [Forward(e.envelope)];
      assert actions[1..] == [];
    } else {
      assert forall i :: 0 <= i < |actions| ==> !actions[i].Forward?;
      NoForward(actions);
    }
  }

  lemma {:induction false} NoForward(actions: seq<Action>)
    requires forall i :: 0 <= i < |actions| ==> !actions[i].Forward?
    ensures Forwarded(actions) == []
    decreases |actions|
  {
    if |actions| > 0 {
      NoForward(actions[1..]);
    }
  }

  /** No PONG envelope is ever passed to `on_message`. */
  lemma PongNeverForwarded(c: Client, events: seq<Event>)
    ensures forall m :: m in Forwarded(Run(c, events).actions) ==> !IsType(m, "PONG")
  {
    ForwardedExactly(c, events);
    DeliverableHasNoPong(events);
  }

  lemma {:induction false} DeliverableHasNoPong(events: seq<Event>)
    ensures forall m :: m in Deliverable(events) ==> !IsType(m, "PONG") && !IsType(m, "RECONNECT")
    decreases |events|
  {
    if |events| > 0 {
      DeliverableHasNoPong(events[1..]);
    }
  }

  /** Nothing turns `auto_reconnect` back on: once `disconnect()` (or a
      RECONNECT envelope) has cleared it, it stays clear. */
  lemma {:induction false} AutoReconnectNeverRestored(c: Client, events: seq<Event>)
    requires !c.autoReconnect
    ensures !Run(c, events).state.autoReconnect
    decreases |events|
  {
    if |events| > 0 {
      var first := Apply(c, events[0]);
      assert !first.state.autoReconnect;
      AutoReconnectNeverRestored(first.state, events[1..]);
    }
  }

  /** With `auto_reconnect` clear, close events never reconnect: `connect()`
      is entered only for explicit calls and RECONNECT envelopes. */
  lemma {:induction false} NoReconnectAfterDisconnect(c: Client, events: seq<Event>)
    requires !c.autoReconnect
    ensures Connects(Run(c, events).actions) == Requested(events)
    decreases |events|
  {
    if |events| > 0 {
      var first := Apply(c, events[0]);
      StepConnects(c, events[0]);
      NoReconnectAfterDisconnect(first.state, events[1..]);
      ConnectsAppend(first.actions, Run(first.state, events[1..]).actions);
    }
  }

  /** One event with `auto_reconnect` clear: `connect()` is entered exactly
      when the event asks for it, and the flag stays clear. */
  lemma StepConnects(c: Client, e: Event)
    requires !c.autoReconnect
    ensures !Apply(c, e).state.autoReconnect
    ensures Connects(Apply(c, e).actions) == Requests(e)
  {
    var actions := Apply(c, e).actions;
    if Requests(e) == 1 {
      assert actions == [ConnectCall] || actions == [CloseSocket, ConnectCall];
      assert [CloseSocket, ConnectCall][1..] == [ConnectCall];
      assert [ConnectCall][1..] == [];
    } else {
      assert ConnectCall !in actions;
      NoConnectCall(actions);
    }
  }

  lemma {:induction false} NoConnectCall(actions: seq<Action>)
    requires ConnectCall !in actions
    ensures Connects(actions) == 0
    decreases |actions|
  {
    if |actions| > 0 {
      assert actions[0] != ConnectCall;
      NoConnectCall(actions[1..]);
    }
  }

  /** `disconnect()` followed by the close event it causes: the socket is
      closed, the hook runs, and no reconnect happens. */
  lemma DisconnectThenClose(c: Client)
    ensures Run(c, [DisconnectEvent, CloseEvent]) ==
              Step(c.(autoReconnect := false, isConnected := false), [CloseSocket, CloseHook])
  {
    assert [DisconnectEvent, CloseEvent][1..] == [CloseEvent];
  }

  /** A RECONNECT envelope followed by the new connection's open event:
      the calls are disconnect then connect, all configured topics are
      subscribed again, and `auto_reconnect` ends up clear. */
  lemma ReconnectThenOpen(c: Client, envelope: Value, token: string)
    requires IsType(envelope, "RECONNECT")
    ensures var r := Run(c, [MessageEvent(envelope), OpenEvent(token)]);
            && r.actions == [CloseSocket, ConnectCall, Send(ListenEnvelope(c.topics, token)), OpenHook]
            && r.state == c.(autoReconnect := false, isConnected := true)
  {
    var s1 := OnMessage(c, envelope);
    assert s1.state == c.(autoReconnect := false, isConnected := true);
    assert s1.actions == [CloseSocket, ConnectCall];
    var s2 := OnOpen(s1.state, token);
    OpenSends(s1.state, token);
    RunPair(c, MessageEvent(envelope), OpenEvent(token));
    assert s1.actions + s2.actions == [CloseSocket, ConnectCall, Send(ListenEnvelope(c.topics, token)), OpenHook];
  }

  /** What `_on_open` sends: the LISTEN envelope for the configured
      topics, then the hook. */
  lemma OpenSends(c: Client, token: string)
    ensures OnOpen(c, token).actions == [Send(ListenEnvelope(c.topics, token)), OpenHook]
    ensures OnOpen(c, token).state == c.(isConnected := true)
  {
    var sub := Subscribe(c.(isConnected := true), c.topics, token);
    assert sub.actions == [Send(ListenEnvelope(c.topics, token))];
  }

  /** Two events in a row. */
  lemma RunPair(c: Client, a: Event, b: Event)
    ensures var first := Apply(c, a);
            var second := Apply(first.state, b);
            Run(c, [a, b]) == Step(second.state, first.actions + second.actions)
  {
    var first := Apply(c, a);
    assert [a, b][1..] == [b];
    RunSingle(first.state, b);
  }

  lemma RunSingle(c: Client, e: Event)
    ensures Run(c, [e]) == Apply(c, e)
  {
    assert [e][1..] == [];
    assert Apply(c, e).actions + [] == Apply(c, e).actions;
  }
}

=== FILE: request.dfy ===
/** The REST helper: the HTTP method whitelist, the `status`-means-error
    rule of `send`, and the recursive `unpack_json` transform that turns
    string-encoded JSON inside a response back into structure. The HTTP call
    and `json.loads` are parameters. */
module Request {
  import opened Wrappers
  import opened Json
  import opened Errors

  datatype Method = HttpGet | HttpPost | HttpDelete

  function MethodName(m: Method): string {
    match m
    case HttpGet => "GET"
    case HttpPost => "POST"
    case HttpDelete => "DELETE"
  }

  /** The method dispatch of the request constructor: exactly the three
      names of `MethodName` are accepted, anything else is a `ValueError`. */
  function NewRequest(name: string): (r: Result<Method, Error>)
    ensures r.Success? <==> name in {"GET", "POST", "DELETE"}
    ensures r.Success? ==> MethodName(r.value) == name
    ensures r.Failure? ==> r.error.ValueError?
  {
    if name == "GET" then Success(HttpGet)
    else if name == "POST" then Success(HttpPost)
    else if name == "DELETE" then Success(HttpDelete)
    else Failure(ValueError("Method must be either GET, POST, or DELETE"))
  }

  /** Every method's name is accepted and dispatches back to that method. */
  lemma MethodNameAccepted(m: Method)
    ensures NewRequest(MethodName(m)) == Success(m)
  {
  }

  /** `unpack_json` applied to one field value: a string is decoded if it
      can be, and a dictionary (original or decoded) is unpacked in turn;
      every other value, lists included, is kept as it is. */
  function UnpackValue(parse: string -> Option<Value>, v: Value): (r: Value)
    requires Shrinking(parse)
    ensures v.Str? && parse(v.s).None? ==> r == v
    ensures !v.Str? && !v.Obj? ==> r == v
    ensures v.Str? && parse(v.s).Some? && !parse(v.s).value.Obj? ==> r == parse(v.s).value
    ensures v.Str? && parse(v.s).Some? && parse(v.s).value.Obj? ==>
              r.Obj? && Keys(r.fields) == Keys(parse(v.s).value.fields)
    ensures v.Obj? ==> r.Obj? && Keys(r.fields) == Keys(v.fields)
    ensures v.Str? && parse(v.s).Some? && parse(v.s).value.Obj? ==>
              r == Obj(UnpackFields(parse, parse(v.s).value.fields))
    ensures v.Obj? ==> r == Obj(UnpackFields(parse, v.fields))
    decreases Weight(v), 1
  {
    match v
    case Str(s) =>
      (match parse(s)
       case None => v
       case Some(decoded) =>
         if decoded.Obj? then Obj(UnpackFields(parse, decoded.fields)) else decoded)
    case Obj(fields) => Obj(UnpackFields(parse, fields))
    case _ => v
  }

  /** `unpack_json(data)`: a new dictionary with exactly the keys of `data`,
      in the same order, each value unpacked on its own. */
  function UnpackFields(parse: string -> Option<Value>, fields: seq<Field>): (r: seq<Field>)
    requires Shrinking(parse)
    ensures Keys(r) == Keys(fields)
    ensures forall i :: 0 <= i < |fields| ==> r[i].value == UnpackValue(parse, fields[i].value)
    decreases FieldsWeight(fields), 0
  {
    if |fields| == 0 then []
    else [Field(fields[0].key, UnpackValue(parse, fields[0].value))] + UnpackFields(parse, fields[1..])
  }

  /** `TwitchAPIResponse(content)`: `unpack_json` starts with
      `content.items()`, so anything but a dictionary raises
      `AttributeError`; a dictionary is unpacked. */
  function Response(parse: string -> Option<Value>, content: Value): (r: Result<seq<Field>, Error>)
    requires Shrinking(parse)
    ensures r.Success? <==> content.Obj?
    ensures r.Failure? ==> r.error == AttributeError("items")
    ensures r.Success? ==> r.value == UnpackFields(parse, content.fields)
  {
    if content.Obj? then Success(UnpackFields(parse, content.fields)) else Failure(AttributeError("items"))
  }

  /** A value in which no string reachable through dictionaries decodes:
      what `unpack_json` has nothing to do on. */
  predicate Settled(parse: string -> Option<Value>, v: Value) {
    match v
    case Str(s) => parse(s).None?
    case Obj(fields) => FieldsSettled(parse, fields)
    case _ => true
  }

  predicate FieldsSettled(parse: string -> Option<Value>, fields: seq<Field>) {
    |fields| == 0 || (Settled(parse, fields[0].value) && FieldsSettled(parse, fields[1..]))
  }

  /** Unpacking changes a value exactly when some string reachable through
      dictionaries decodes. */
  lemma {:induction false} UnpackFixedIffSettled(parse: string -> Option<Value>, v: Value)
    requires Shrinking(parse)
    ensures UnpackValue(parse, v) == v <==> Settled(parse, v)
    decreases v
  {
    match v
    case Str(s) =>
      if parse(s).Some? {
        var d := parse(s).value;
        assert Weight(d) <= |s|;
        if d.Str? {
          assert |d.s| < |s|;
        }
      }
    case Obj(fields) =>
      FieldsFixedIffSettled(parse, fields);
    case _ =>
  }

  lemma {:induction false} FieldsFixedIffSettled(parse: string -> Option<Value>, fields: seq<Field>)
    requires Shrinking(parse)
    ensures UnpackFields(parse, fields) == fields <==> FieldsSettled(parse, fields)
    decreases fields
  {
    if |fields| > 0 {
      UnpackFixedIffSettled(parse, fields[0].value);
      FieldsFixedIffSettled(parse, fields[1..]);
      var head := Field(fields[0].key, UnpackValue(parse, fields[0].value));
      ConsEquals(head, UnpackFields(parse, fields[1..]), fields);
    }
  }

  /** `TwitchAPIRequest.send` after the HTTP call: `response` is the body
      the call returned (`None` when the HTTP library raised). A decoded
      dictionary with a `status` key becomes a request error carrying
      `status` and `message`; any other dictionary is unpacked and returned. */
  function Send(parse: string -> Option<Value>, response: Option<string>): (r: Result<seq<Field>, Error>)
    requires Shrinking(parse)
    ensures response.None? ==> r == Failure(TransportFailure)
    ensures response.Some? && parse(response.value).None? ==> r == Failure(DecodeError)
    ensures response.Some? && parse(response.value).Some? && !parse(response.value).value.Obj? ==>
              r == Failure(NotAnObject)
    ensures r.Success? <==>
              && response.Some?
              && parse(response.value).Some?
              && parse(response.value).value.Obj?
              && "status" !in Keys(parse(response.value).value.fields)
    ensures r.Success? ==> r.value == UnpackFields(parse, parse(response.value).value.fields)
    ensures r.Failure? && r.error.RequestError? <==>
              && response.Some?
              && parse(response.value).Some?
              && parse(response.value).value.Obj?
              && "status" in Keys(parse(response.value).value.fields)
              && "message" in Keys(parse(response.value).value.fields)
    ensures r.Failure? && r.error.RequestError? ==>
              var fields := parse(response.value).value.fields;
              Some(r.error.status) == Get(fields, "status") && Some(r.error.message) == Get(fields, "message")
    ensures && response.Some?
            && parse(response.value).Some?
            && parse(response.value).value.Obj?
            && "status" in Keys(parse(response.value).value.fields)
            && "message" !in Keys(parse(response.value).value.fields)
            ==> r == Failure(KeyError("message"))
  {
    match response
    case None => Failure(TransportFailure)
    case Some(body) =>
      match parse(body)
      case None => Failure(DecodeError)
      case Some(content) =>
        if !content.Obj? then Failure(NotAnObject)
        else if "status" in Keys(content.fields) then
          match Get(content.fields, "message")
          case None => Failure(KeyError("message"))
          case Some(message) => Failure(RequestError(Get(content.fields, "status").value, message))
        else Success(UnpackFields(parse, content.fields))
  }

  /** A list equals `[x] + xs` exactly when it starts with `x` and goes on
      with `xs`. */
  lemma ConsEquals<T>(x: T, xs: seq<T>, ys: seq<T>)
    ensures [x] + xs == ys <==> |ys| > 0 && ys[0] == x && ys[1..] == xs
  {
    if |ys| > 0 && ys[0] == x && ys[1..] == xs {
      assert ys == [ys[0]] + ys[1..];
    }
  }
}

=== FILE: text.dfy ===
/** Python string operations the core relies on: `str.split` with a
    non-empty separator, the matching join, prefix/suffix tests and the
    decimal rendering of an integer inside an f-string. */
module Text {

  const CRLF: string := "\r\n"

  predicate StartsWith(s: string, prefix: string) {
    |prefix| <= |s| && s[..|prefix|] == prefix
  }

  predicate EndsWith(s: string, suffix: string) {
    |suffix| <= |s| && s[|s| - |suffix|..] == suffix
  }

  /** `sep.join(parts)`. */
  function Join(parts: seq<string>, sep: string): string {
    if |parts| == 0 then ""
    else if |parts| == 1 then parts[0]
    else parts[0] + sep + Join(parts[1..], sep)
  }

  /** `s.split(sep)`: scans left to right and cuts at every occurrence of
      `sep` that does not overlap an earlier one; always yields at least one
      piece, so `"".split(sep) == [""]`. */
  function Split(s: string, sep: string): (r: seq<string>)
    requires |sep| > 0
    ensures |r| >= 1
    decreases |s|
  {
    if StartsWith(s, sep) then [""] + Split(s[|sep|..], sep)
    else if |s| == 0 then [""]
    else
      var rest := Split(s[1..], sep);
      [[s[0]] + rest[0]] + rest[1..]
  }

  /** Number of occurrences of `c` in `s`. */
  function Count(s: string, c: char): nat {
    if |s| == 0 then 0 else (if s[0] == c then 1 else 0) + Count(s[1..], c)
  }

  lemma JoinPrepend(x: string, rest: seq<string>, sep: string)
    requires |rest| >= 1
    ensures Join([x + rest[0]] + rest[1..], sep) == x + Join(rest, sep)
  {
    if |rest| > 1 {
      assert ([x + rest[0]] + rest[1..])[1..] == rest[1..];
    }
  }

  /** Joining the pieces of a split with the same separator gives back the
      original text: `sep.join(s.split(sep)) == s`. */
  lemma {:induction false} JoinSplit(s: string, sep: string)
    requires |sep| > 0
    ensures Join(Split(s, sep), sep) == s
    decreases |s|
  {
    if StartsWith(s, sep) {
      JoinSplit(s[|sep|..], sep);
      JoinSplitCut(s, sep);
    } else if |s| > 0 {
      JoinSplit(s[1..], sep);
      JoinSplitChar(s, sep);
    } else {
      assert Split(s, sep) == [""];
    }
  }

  /** The step of `JoinSplit` at an occurrence of the separator. */
  lemma JoinSplitCut(s: string, sep: string)
    requires |sep| > 0 && StartsWith(s, sep)
    requires Join(Split(s[|sep|..], sep), sep) == s[|sep|..]
    ensures Join(Split(s, sep), sep) == s
  {
    var tail := s[|sep|..];
    var rest := Split(tail, sep);
    assert Split(s, sep) == [""] + rest;
    JoinEmptyCons(rest, sep);
    assert s == s[..|sep|] + tail;
  }

  lemma JoinEmptyCons(rest: seq<string>, sep: string)
    requires |rest| >= 1
    ensures Join([""] + rest, sep) == sep + Join(rest, sep)
  {
    JoinCons("", rest, sep);
    assert "" + sep == sep;
  }

  /** The step of `JoinSplit` at a character that does not start the
      separator. */
  lemma JoinSplitChar(s: string, sep: string)
    requires |sep| > 0 && |s| > 0 && !StartsWith(s, sep)
    requires Join(Split(s[1..], sep), sep) == s[1..]
    ensures Join(Split(s, sep), sep) == s
  {
    var rest := Split(s[1..], sep);
    assert Split(s, sep) == [[s[0]] + rest[0]] + rest[1..];
    JoinPrepend([s[0]], rest, sep);
    assert s == [s[0]] + s[1..];
  }

  lemma JoinCons(x: string, rest: seq<string>, sep: string)
    requires |rest| >= 1
    ensures Join([x] + rest, sep) == x + sep + Join(rest, sep)
  {
    assert ([x] + rest)[1..] == rest;
  }

  /** Splitting on a single character gives one more piece than there are
      occurrences of that character. */
  lemma {:induction false} SplitCount(s: string, c: char)
    ensures |Split(s, [c])| == 1 + Count(s, c)
    decreases |s|
  {
    if |s| > 0 {
      SplitCount(s[1..], c);
      if StartsWith(s, [c]) {
        assert s[..1] == [s[0]];
        assert s[1..] == s[|[c]|..];
      }
    }
  }

  /** No piece of a split on a single character contains that character. */
  lemma {:induction false} SplitPiecesFree(s: string, c: char)
    ensures forall i :: 0 <= i < |Split(s, [c])| ==> c !in Split(s, [c])[i]
    decreases |s|
  {
    if |s| > 0 {
      SplitPiecesFree(s[1..], c);
      if StartsWith(s, [c]) {
        assert s[1..] == s[|[c]|..];
      } else {
        assert s[..1] == [s[0]];
      }
    }
  }

  /** Text that never contains the separator's first character splits
      into itself. */
  lemma {:induction false} SplitWithout(s: string, sep: string)
    requires |sep| > 0 && sep[0] !in s
    ensures Split(s, sep) == [s]
    decreases |s|
  {
    if |s| > 0 {
      assert s[0] != sep[0];
      assert !StartsWith(s, sep) by {
        if |sep| <= |s| {
          assert s[..|sep|][0] == s[0];
        }
      }
      SplitWithout(s[1..], sep);
      assert [s[0]] + s[1..] == s;
    }
  }

  /** A piece free of the separator's first character, followed by the
      separator, is cut off as the first piece. */
  lemma {:induction false} SplitAfterPiece(p: string, sep: string, rest: string)
    requires |sep| > 0 && sep[0] !in p
    ensures Split(p + sep + rest, sep) == [p] + Split(rest, sep)
    decreases |p|
  {
    var s := p + sep + rest;
    if |p| == 0 {
      assert s == sep + rest;
      assert s[..|sep|] == sep;
      assert s[|sep|..] == rest;
    } else {
      assert p[0] != sep[0];
      assert !StartsWith(s, sep) by {
        assert s[0] == p[0];
        if |sep| <= |s| {
          assert s[..|sep|][0] == s[0];
        }
      }
      assert s[1..] == p[1..] + sep + rest;
      SplitAfterPiece(p[1..], sep, rest);
      assert [p[0]] + p[1..] == p;
    }
  }

  /** Splitting a join gives back the parts when no part contains the
      separator's first character: the inverse direction of `JoinSplit`. */
  lemma {:induction false} SplitJoin(parts: seq<string>, sep: string)
    requires |parts| >= 1 && |sep| > 0
    requires forall i :: 0 <= i < |parts| ==> sep[0] !in parts[i]
    ensures Split(Join(parts, sep), sep) == parts
    decreases |parts|
  {
    if |parts| == 1 {
      SplitWithout(parts[0], sep);
    } else {
      SplitJoin(parts[1..], sep);
      SplitAfterPiece(parts[0], sep, Join(parts[1..], sep));
      assert [parts[0]] + parts[1..] == parts;
    }
  }

  function DigitChar(d: nat): (c: char)
    requires d < 10
    ensures '0' <= c <= '9' && (c - '0') as nat == d
  {
    ('0' as int + d) as char
  }

  predicate IsDigits(s: string) {
    forall i :: 0 <= i < |s| ==> '0' <= s[i] <= '9'
  }

  /** Value of a string of decimal digits. */
  function DecimalValue(s: string): nat
    requires IsDigits(s)
  {
    if |s| == 0 then 0 else DecimalValue(s[..|s| - 1]) * 10 + (s[|s| - 1] - '0') as nat
  }

  /** The digits of a natural number, most significant first. */
  function NatToDecimal(n: nat): (r: string)
    ensures |r| >= 1 && IsDigits(r)
    ensures DecimalValue(r) == n
    ensures |r| > 1 ==> r[0] != '0'
  {
    if n < 10 then [DigitChar(n)]
    else
      var prefix := NatToDecimal(n / 10);
      AppendDigit(prefix, DigitChar(n % 10));
      prefix + [DigitChar(n % 10)]
  }

  /** Appending a digit multiplies the value by ten and adds the digit. */
  lemma AppendDigit(prefix: string, c: char)
    requires IsDigits(prefix) && '0' <= c <= '9'
    ensures IsDigits(prefix + [c])
    ensures DecimalValue(prefix + [c]) == DecimalValue(prefix) * 10 + (c - '0') as nat
  {
    assert (prefix + [c])[..|prefix|] == prefix;
  }

  /** `f'{n}'` for a Python int: an optional minus sign, then the digits. */
  function IntToDecimal(n: int): (r: string)
    ensures n >= 0 ==> IsDigits(r) && DecimalValue(r) == n
    ensures |r| >= 1
    ensures n < 0 ==> r[0] == '-' && IsDigits(r[1..]) && DecimalValue(r[1..]) == -n
  {
    if n < 0 then "-" + NatToDecimal(-n) else NatToDecimal(n)
  }
}

=== FILE: user_token.dfy ===
/** The user access token: the authorization URL it sends the user to, the
    three-way validity decision, and the renew-on-read behaviour of
    `__str__`. The clock is a parameter, the validation endpoint is the
    oracle `fetch` (token to response body, `None` when the HTTP library
    raises), `json.loads` is `parse`, and the browser round trip is the list
    of fragment bodies the callback receiver is sent. */
module UserToken {
  import opened Wrappers
  import opened Text
  import opened Json
  import opened Errors
  import Request
  import opened AuthApp

  const AuthorizeEndpoint: string := "https://id.twitch.tv/oauth2/authorize"
  const LocalHost: string := "http://localhost:"

  /** The `scope` argument: a ready string or a list of scope names. */
  datatype Scope = ScopeText(text: string) | ScopeList(items: seq<string>)

  /** The scope as it goes into the query: a list is joined with the
      percent-encoded space `%20`, a string is passed through. */
  function ScopeValue(scope: Scope): (r: string)
    ensures scope.ScopeText? ==> r == scope.text
    ensures scope.ScopeList? && |scope.items| == 0 ==> r == ""
    ensures scope.ScopeList? && |scope.items| == 1 ==> r == scope.items[0]
    ensures scope.ScopeList? && |scope.items| > 1 ==>
              r == scope.items[0] + "%20" + Join(scope.items[1..], "%20")
  {
    match scope
    case ScopeText(text) => text
    case ScopeList(items) => Join(items, "%20")
  }

  /** A list of scope names reads back from the joined value by splitting
      on `%20`, provided no name contains `%`. */
  lemma ScopeRoundTrip(items: seq<string>)
    requires |items| >= 1
    requires forall i :: 0 <= i < |items| ==> '%' !in items[i]
    ensures Split(ScopeValue(ScopeList(items)), "%20") == items
  {
    SplitJoin(items, "%20");
  }

  /** At most one trailing `/` is removed, and one is removed exactly when
      the path ends with `/`. */
  function TrimSlash(path: string): (r: string)
    ensures EndsWith(path, "/") <==> r + "/" == path
    ensures !EndsWith(path, "/") ==> r == path
  {
    if EndsWith(path, "/") then path[..|path| - 1] else path
  }

  /** `get_redirect_uri`: the local address the receiver listens on. */
  function RedirectUri(port: int, path: string): (r: string)
    ensures StartsWith(r, LocalHost + IntToDecimal(port))
    ensures EndsWith(path, "/") <==> r + "/" == LocalHost + IntToDecimal(port) + path
    ensures !EndsWith(path, "/") ==> r == LocalHost + IntToDecimal(port) + path
  {
    var base := LocalHost + IntToDecimal(port);
    var r := base + TrimSlash(path);
    assert r[..|base|] == base;
    assert r + "/" == base + (TrimSlash(path) + "/");
    r
  }

  /** The query of the token request, in insertion order. */
  function Query(clientId: string, scope: Scope, port: int, path: string): (q: seq<Param>)
    ensures |q| == 4
    ensures q[0] == Param("client_id", clientId)
    ensures q[1] == Param("redirect_uri", RedirectUri(port, path))
    ensures q[2] == Param("response_type", "token")
    ensures q[3] == Param("scope", ScopeValue(scope))
  {
    [ Param("client_id", clientId),
      Param("redirect_uri", RedirectUri(port, path)),
      Param("response_type", "token"),
      Param("scope", ScopeValue(scope)) ]
  }

  /** Each parameter rendered as `key=value`, without escaping. */
  function Render(query: seq<Param>): (r: seq<string>)
    ensures |r| == |query|
    ensures forall i :: 0 <= i < |query| ==> r[i] == query[i].key + "=" + query[i].value
  {
    if |query| == 0 then [] else [query[0].key + "=" + query[0].value] + Render(query[1..])
  }

  /** `get_authorization_url`: the endpoint, `?`, and the rendered
      parameters joined by `&`. */
  function AuthorizationUrl(query: seq<Param>): (url: string)
    ensures StartsWith(url, AuthorizeEndpoint + "?")
  {
    var url := AuthorizeEndpoint + "?" + Join(Render(query), "&");
    assert url[..|AuthorizeEndpoint + "?"|] == AuthorizeEndpoint + "?";
    url
  }

  /** The query part of an authorization URL reads back, segment by
      segment and in order, as the parameters it was built from, provided
      no key or value contains `&` or `=` (nothing is escaped). */
  lemma AuthorizationUrlRoundTrip(query: seq<Param>)
    requires |query| >= 1
    requires forall i :: 0 <= i < |query| ==> '&' !in query[i].key && '&' !in query[i].value
    requires forall i :: 0 <= i < |query| ==> '=' !in query[i].key && '=' !in query[i].value
    ensures var url := AuthorizationUrl(query);
            var segments := Split(url[|AuthorizeEndpoint + "?"|..], "&");
            && |segments| == |query|
            && forall i :: 0 <= i < |query| ==> ParamOf(segments[i]) == Some(query[i])
  {
    var url := AuthorizationUrl(query);
    var rendered := Render(query);
    assert url[|AuthorizeEndpoint + "?"|..] == Join(rendered, "&");
    forall i | 0 <= i < |query|
      ensures '&' !in rendered[i]
    {
      assert rendered[i] == query[i].key + "=" + query[i].value;
    }
    SplitJoin(rendered, "&");
    forall i | 0 <= i < |query|
      ensures ParamOf(rendered[i]) == Some(query[i])
    {
      SingleEquals(query[i].key, query[i].value);
      var p := ParamOf(rendered[i]).value;
      KeyValueUnique(p.key, p.value, query[i].key, query[i].value);
    }
  }

  /** Login and user id remembered from the last successful validation;
      absent until then (reading them raises `AttributeError`). */
  datatype Identity = Identity(login: Value, userId: Value)

  datatype Credential = Credential(
    clientId: string,
    port: int,
    path: string,
    query: seq<Param>,
    token: Option<string>,
    expiresAt: Option<real>,
    identity: Option<Identity>)

  /** The constructor's field set-up, before its final `str(self)`. */
  function New(clientId: string, scope: Scope, port: int, path: string, token: Option<string>): (t: Credential)
    ensures t.token == token && t.expiresAt.None? && t.identity.None?
    ensures Keys(QueryFields(t.query)) == ["client_id", "redirect_uri", "response_type", "scope"]
    ensures t.query[2].value == "token" && t.query[3].value == ScopeValue(scope)
  {
    Credential(clientId, port, path, Query(clientId, scope, port, path), token, None, None)
  }

  function QueryFields(query: seq<Param>): (fs: seq<Field>)
    ensures |fs| == |query|
    ensures forall i :: 0 <= i < |query| ==> fs[i] == Field(query[i].key, Str(query[i].value))
  {
    if |query| == 0 then [] else [Field(query[0].key, Str(query[0].value))] + QueryFields(query[1..])
  }

  predicate HasToken(t: Credential) {
    t.token.Some? && t.token.value != ""
  }

  /** The configuration fixed at construction. */
  predicate SameConfig(t: Credential, u: Credential) {
    u.clientId == t.clientId && u.port == t.port && u.path == t.path && u.query == t.query
  }

  /** Everything but the cached expiry and identity is left alone. */
  predicate SameSettings(t: Credential, u: Credential) {
    SameConfig(t, u) && u.token == t.token
  }

  /** `time.time() + response['expires_in']`: a number is added to the
      clock (a boolean counts as 0 or 1), anything else is a `TypeError`. */
  function ExpiryAfter(now: real, expiresIn: Value): (r: Result<real, Error>)
    ensures expiresIn.Num? ==> r == Success(now + expiresIn.n as real)
    ensures r.Success? <==> expiresIn.Num? || expiresIn.Bool?
    ensures r.Failure? ==> r.error == TypeError
  {
    match expiresIn
    case Num(n) => Success(now + n as real)
    case Bool(b) => Success(now + if b then 1.0 else 0.0)
    case _ => Failure(TypeError)
  }

  /** The outcome of `is_valid`: the answer and the credential after it. */
  datatype Checked = Checked(valid: bool, state: Credential)

  /** `is_valid`. No token: invalid. A known expiry: compared with the
      clock. Otherwise the validation endpoint decides: a request error
      means invalid, a response caches its expiry and identity and means
      valid; any other failure propagates. */
  function IsValid(t: Credential, now: real, fetch: string -> Option<string>, parse: string -> Option<Value>)
    : (r: Result<Checked, Error>)
    requires Shrinking(parse)
    ensures !HasToken(t) ==> r == Success(Checked(false, t))
    ensures HasToken(t) && t.expiresAt.Some? ==> r == Success(Checked(now < t.expiresAt.value, t))
    ensures r.Success? ==> SameSettings(t, r.value.state)
    ensures r.Success? && r.value.valid ==> HasToken(t) && r.value.state.expiresAt.Some?
    ensures r.Success? && r.value.state.expiresAt != t.expiresAt ==>
              t.expiresAt.None? && r.value.valid && r.value.state.identity.Some?
    ensures HasToken(t) && t.expiresAt.None? ==> r == Validate(t, now, Request.Send(parse, fetch(t.token.value)))
  {
    if !HasToken(t) then Success(Checked(false, t))
    else if t.expiresAt.Some? then Success(Checked(now < t.expiresAt.value, t))
    else Validate(t, now, Request.Send(parse, fetch(t.token.value)))
  }

  /** The request branch of `is_valid`, given what `send` produced: a
      request error means invalid, any other exception propagates, and a
      response caches `now + expires_in` and the identity. */
  function Validate(t: Credential, now: real, sent: Result<seq<Field>, Error>): (r: Result<Checked, Error>)
    ensures sent.Failure? && sent.error.RequestError? ==> r == Success(Checked(false, t))
    ensures sent.Failure? && !sent.error.RequestError? ==> r == Failure(sent.error)
    ensures sent.Success? && Get(sent.value, "expires_in").None? ==> r == Failure(KeyError("expires_in"))
    ensures sent.Success? && Get(sent.value, "expires_in").Some? && Get(sent.value, "expires_in").value.Num? ==>
              && r.Success? && r.value.valid
              && r.value.state.expiresAt == Some(now + Get(sent.value, "expires_in").value.n as real)
    ensures r.Success? ==> SameSettings(t, r.value.state)
    ensures r.Success? && r.value.valid ==> sent.Success? && r.value.state.expiresAt.Some? && r.value.state.identity.Some?
    ensures r.Success? && r.value.valid ==>
              r.value.state.identity == Some(Identity(Get(sent.value, "login").GetOr(Null),
                                                      Get(sent.value, "user_id").GetOr(Null)))
    ensures r.Success? && !r.value.valid ==> r.value.state == t
  {
    match sent
    case Failure(e) =>
      if e.RequestError? then Success(Checked(false, t)) else Failure(e)
    case Success(response) =>
      match Get(response, "expires_in")
      case None => Failure(KeyError("expires_in"))
      case Some(expiresIn) =>
        match ExpiryAfter(now, expiresIn)
        case Failure(e) => Failure(e)
        case Success(at) =>
          var identity := Identity(Get(response, "login").GetOr(Null), Get(response, "user_id").GetOr(Null));
          Success(Checked(true, t.(expiresAt := Some(at), identity := Some(identity))))
  }

  /** With no token, or with a known expiry, `is_valid` makes no request:
      its outcome is the same whatever the endpoint would answer. */
  lemma IsValidWithoutRequest(t: Credential, now: real, fetch1: string -> Option<string>,
                              fetch2: string -> Option<string>, parse: string -> Option<Value>)
    requires Shrinking(parse)
    requires !HasToken(t) || t.expiresAt.Some?
    ensures IsValid(t, now, fetch1, parse) == IsValid(t, now, fetch2, parse)
  {
  }

  /** Once a validation has succeeded, the token stays valid without any
      further request until the cached expiry passes. */
  lemma ValidWithinWindow(t: Credential, now: real, later: real, fetch: string -> Option<string>,
                          anyFetch: string -> Option<string>, parse: string -> Option<Value>)
    requires Shrinking(parse)
    requires IsValid(t, now, fetch, parse).Success?
    requires IsValid(t, now, fetch, parse).value.valid
    requires later < IsValid(t, now, fetch, parse).value.state.expiresAt.value
    ensures var u := IsValid(t, now, fetch, parse).value.state;
            IsValid(u, later, anyFetch, parse) == Success(Checked(true, u))
  {
  }

  /** The polling loop of `request_new` together with the receiver: POSTs
      are handled in order until one completes the transaction. A POST
      without `access_token` changes nothing and the wait goes on. */
  function AwaitCallback(c: Callback, bodies: seq<string>): (r: Callback)
    ensures c.completed ==> r == c
    ensures !r.completed ==> r == c
    ensures !c.completed ==>
              (r.completed <==> exists i :: 0 <= i < |bodies| && "access_token" in ParseFragment(bodies[i]))
    ensures !c.completed && r.completed ==>
              exists i :: && 0 <= i < |bodies|
                          && "access_token" in ParseFragment(bodies[i])
                          && (forall j :: 0 <= j < i ==> "access_token" !in ParseFragment(bodies[j]))
                          && r.token == Some(ParseFragment(bodies[i])["access_token"])
    decreases |bodies|
  {
    if c.completed || |bodies| == 0 then c
    else
      var first := Receive(c, bodies[0], true).state;
      if first.completed then first
      else
        var next := AwaitCallback(first, bodies[1..]);
        assert forall j :: 0 <= j < |bodies| - 1 ==> bodies[1..][j] == bodies[j + 1];
        next
  }

  /** What reading the token ends in: a token, an exception, or a poll loop
      that has not finished (no POST carried a token yet). */
  datatype Outcome =
    | Returned(token: string, state: Credential)
    | Raised(error: Error, state: Credential)
    | Waiting(state: Credential)

  /** `request_new`: start a receiver, wait for it to complete, then
      re-validate at time `later`. Only the token is written by the
      receiver; a cached expiry survives the renewal. */
  function RequestNew(t: Credential, bodies: seq<string>, later: real,
                      fetch: string -> Option<string>, parse: string -> Option<Value>): (r: Outcome)
    requires Shrinking(parse)
    ensures r.Waiting? <==> !AwaitCallback(Start(t.token), bodies).completed
    ensures r.Waiting? ==> r.state == t
    ensures SameConfig(t, r.state)
    ensures !r.Waiting? ==> r.state.token == AwaitCallback(Start(t.token), bodies).token
    ensures t.expiresAt.Some? ==> r.state.expiresAt == t.expiresAt
    ensures r.Returned? ==> r.state.token == Some(r.token) && r.token != ""
    ensures r.Returned? ==> r.state.expiresAt.Some?
    ensures var done := AwaitCallback(Start(t.token), bodies);
            var renewed := t.(token := done.token);
            var check := IsValid(renewed, later, fetch, parse);
            && (done.completed && check.Failure? ==> r == Raised(check.error, renewed))
            && (done.completed && check.Success? && check.value.valid ==>
                  r == Returned(renewed.token.value, check.value.state))
            && (done.completed && check.Success? && !check.value.valid ==>
                  r == Raised(InvalidToken, check.value.state))
  {
    var done := AwaitCallback(Start(t.token), bodies);
    if !done.completed then Waiting(t)
    else
      var renewed := t.(token := done.token);
      match IsValid(renewed, later, fetch, parse)
      case Failure(e) => Raised(e, renewed)
      case Success(Checked(valid, u)) =>
        if valid then Returned(u.token.value, u) else Raised(InvalidToken, u)
  }

  /** `__str__`: validate at time `now`; renew only if that failed; return
      the token. */
  function Read(t: Credential, now: real, later: real, bodies: seq<string>,
                fetch: string -> Option<string>, parse: string -> Option<Value>): (r: Outcome)
    requires Shrinking(parse)
    ensures r.Returned? ==> r.token != "" && r.state.token == Some(r.token)
    ensures r.Returned? ==> r.state.expiresAt.Some?
    ensures IsValid(t, now, fetch, parse).Success? && IsValid(t, now, fetch, parse).value.valid ==>
              r == Returned(t.token.value, IsValid(t, now, fetch, parse).value.state)
    ensures IsValid(t, now, fetch, parse).Failure? ==> r == Raised(IsValid(t, now, fetch, parse).error, t)
    ensures IsValid(t, now, fetch, parse).Success? && !IsValid(t, now, fetch, parse).value.valid ==>
              r == RequestNew(IsValid(t, now, fetch, parse).value.state, bodies, later, fetch, parse)
    ensures r.Waiting? ==> r.state.token == t.token
    ensures SameConfig(t, r.state)
  {
    match IsValid(t, now, fetch, parse)
    case Failure(e) => Raised(e, t)
    case Success(Checked(valid, u)) =>
      if valid then Returned(u.token.value, u) else RequestNew(u, bodies, later, fetch, parse)
  }

  /** The constructor: set up the fields, then read the token once. Without
      a token that read goes straight to the browser, making no request. */
  function Create(clientId: string, scope: Scope, port: int, path: string, token: Option<string>,
                  now: real, later: real, bodies: seq<string>,
                  fetch: string -> Option<string>, parse: string -> Option<Value>): (r: Outcome)
    requires Shrinking(parse)
    ensures r.state.query == Query(clientId, scope, port, path)
    ensures r.state.clientId == clientId && r.state.port == port && r.state.path == path
    ensures r.Returned? ==> r.token != "" && r.state.expiresAt.Some?
    ensures HasToken(New(clientId, scope, port, path, token)) ==>
              r == Read(New(clientId, scope, port, path, token), now, later, bodies, fetch, parse)
    ensures token.None? || token == Some("") ==>
              r == RequestNew(New(clientId, scope, port, path, token), bodies, later, fetch, parse)
  {
    var t := New(clientId, scope, port, path, token);
    assert !HasToken(t) ==> IsValid(t, now, fetch, parse) == Success(Checked(false, t));
    Read(t, now, later, bodies, fetch, parse)
  }

  /** A cached token whose expiry lies ahead is returned as it is: no
      request, no renewal. */
  lemma CachedTokenReturned(t: Credential, now: real, later: real, bodies: seq<string>,
                            fetch: string -> Option<string>, parse: string -> Option<Value>)
    requires Shrinking(parse)
    requires HasToken(t) && t.expiresAt.Some? && now < t.expiresAt.value
    ensures Read(t, now, later, bodies, fetch, parse) == Returned(t.token.value, t)
  {
  }

  /** A valid token is never renewed: what the browser would post does not
      matter. */
  lemma ValidTokenNotRenewed(t: Credential, now: real, later1: real, later2: real,
                             bodies1: seq<string>, bodies2: seq<string>,
                             fetch: string -> Option<string>, parse: string -> Option<Value>)
    requires Shrinking(parse)
    requires IsValid(t, now, fetch, parse).Success? && IsValid(t, now, fetch, parse).value.valid
    ensures Read(t, now, later1, bodies1, fetch, parse) == Read(t, now, later2, bodies2, fetch, parse)
  {
  }

  /** Renewal never clears a cached expiry, so once that expiry has passed
      every completed renewal ends in `InvalidTokenException`, whatever
      token the browser delivers. */
  lemma StaleExpiryAlwaysRaises(t: Credential, now: real, later: real, bodies: seq<string>,
                                fetch: string -> Option<string>, parse: string -> Option<Value>)
    requires Shrinking(parse)
    requires t.expiresAt.Some? && t.expiresAt.value <= now && t.expiresAt.value <= later
    requires exists i :: 0 <= i < |bodies| && "access_token" in ParseFragment(bodies[i])
    ensures Read(t, now, later, bodies, fetch, parse).Raised?
    ensures Read(t, now, later, bodies, fetch, parse).error == InvalidToken
  {
    var first := IsValid(t, now, fetch, parse);
    assert first == Success(Checked(false, t));
    var done := AwaitCallback(Start(t.token), bodies);
    assert done.completed;
    var renewed := t.(token := done.token);
    assert IsValid(renewed, later, fetch, parse) == Success(Checked(false, renewed));
  }

  /** A credential that has never been validated gets the token the first
      completing POST carries, and if the endpoint accepts it with
      `expires_in = n`, the expiry becomes `later + n`. */
  lemma RenewalDeliversToken(t: Credential, now: real, later: real, bodies: seq<string>, i: nat, token: string,
                             fetch: string -> Option<string>, parse: string -> Option<Value>,
                             response: seq<Field>, n: int)
    requires Shrinking(parse)
    requires !HasToken(t) && t.expiresAt.None?
    requires i < |bodies| && "access_token" in ParseFragment(bodies[i])
    requires ParseFragment(bodies[i])["access_token"] == token && token != ""
    requires forall j :: 0 <= j < i ==> "access_token" !in ParseFragment(bodies[j])
    requires Request.Send(parse, fetch(token)) == Success(response)
    requires Get(response, "expires_in") == Some(Num(n))
    ensures var r := Read(t, now, later, bodies, fetch, parse);
            r.Returned? && r.token == token && r.state.expiresAt == Some(later + n as real)
  {
    assert IsValid(t, now, fetch, parse) == Success(Checked(false, t));
    var done := AwaitCallback(Start(t.token), bodies);
    var k :| && 0 <= k < |bodies|
             && "access_token" in ParseFragment(bodies[k])
             && (forall j :: 0 <= j < k ==> "access_token" !in ParseFragment(bodies[j]))
             && done.token == Some(ParseFragment(bodies[k])["access_token"]);
    assert k == i;
    var renewed := t.(token := done.token);
    assert HasToken(renewed) && renewed.expiresAt.None?;
    var v := Validate(renewed, later, Success(response));
    ValidateAccepts(renewed, later, response, n);
    assert IsValid(renewed, later, fetch, parse) == v;
    assert RequestNew(t, bodies, later, fetch, parse) == Returned(token, v.value.state);
  }

  lemma ValidateAccepts(t: Credential, now: real, response: seq<Field>, n: int)
    requires Get(response, "expires_in") == Some(Num(n))
    ensures var v := Validate(t, now, Success(response));
            v.Success? && v.value.valid && v.value.state.expiresAt == Some(now + n as real)
            && v.value.state.token == t.token
  {
    var v := Validate(t, now, Success(response));
    assert Get(response, "expires_in").value.Num?;
    assert SameSettings(t, v.value.state);
  }
}

=== FILE: wrappers.dfy ===
/** Failure-compatible wrappers used by every other module: an optional value
    and a success-or-error result standing in for Python's None and exceptions. */
module Wrappers {

  datatype Option<+T> = None | Some(value: T) {
    function GetOr(default: T): T {
      match this
      case Some(v) => v
      case None => default
    }
  }

  datatype Result<+T, +E> = Success(value: T) | Failure(error: E)
}
